=== FILE: README.md ===
# Energy dashboard: usage drill-down and dashboard rules in Dafny

This project models the logic of a React energy-monitoring dashboard.

The centre of the model is the **usage breakdown** view. It shows three things:

- a stacked bar chart of the current week window;
- a line chart of 24 hourly values for one calendar date;
- a panel with the per-category breakdown, compared against last month's average.

All of its data comes from a deterministic seeded generator: a 32-bit string hash followed by a fractional step. Clicking a bar drills down to a day, clicking a point drills down to an hour, and a date picker and week navigation move the windows. The model is a reducer `(State, Event) -> State` plus pure projection functions. It proves the value bands of the generated data, an invariant that every reachable state keeps, the toggle round trips, and the highlight and panel rules.

Four smaller pages are modelled as pure decision rules:

- **monitoring:** alert priority, status predicates, and the sliding live window;
- **forecast:** selection toggles, range switches, thresholds and colour rules;
- **overview:** smart tips, KPI polarity, and the seven-day chart;
- **chat assistant:** the ordered keyword table, the send guard, and the conversation invariants.

Modules:

| file | module | contents |
|---|---|---|
| js.dfy | Js | JavaScript value semantics used by the pages: `ToInt32`, decimal strings, ASCII `toLowerCase`, `includes`, `trim`, `toFixed(1)` |
| environment.dfy | Environment | the clock, the en-US date formatting and the `Math.sin` fractional step, as fields of an `Env` value; day numbers |
| seeded_random.dfy | SeededRandom | `pseudoRandom`'s hash |
| usage_data.dfy | UsageData | week windows, weekly and hourly generators, last month's average |
| usage_selection.dfy | UsageSelection | the drill-down reducer and its invariant |
| usage_view.dfy | UsageView | highlight rules, hourly line, breakdown panel |
| monitoring.dfy | Monitoring | live monitoring tick |
| forecast.dfy | Forecast | forecast charts |
| overview.dfy | Overview | overview page |
| chatbot.dfy | Chatbot | chat assistant |

Behaviour of the code worth noting:

- **Double-clicking a bar.** Clicking the same weekly bar twice does not return to the state before the first click. The breakdown keeps the clicked day's entry, and the hour selection cleared by the first click stays cleared (`UsageSelection.WeeklyClickTwice`).
- **Deselecting an hour.** This always installs the day's 24-hour sum with the daily average as comparison. It keeps the bar selection and does not depend on whether a day was chosen (`UsageSelection.HourlyChartClick`).
- **The date picker.** It sets the title date to the picked date's label. It leaves the breakdown unchanged (`UsageSelection.PickHourlyDate`).
- **The first breakdown.** Before any click the breakdown is the constant 45/30/15/10 (`UsageSelection.Init`).
- **When the comparison is empty.** Deselecting a bar and picking a date both clear the comparison.
- **The delta arrow.** The arrow is decided on the one-decimal rounded percentage. A difference smaller than 0.05 % in size therefore shows as flat (`UsageView.ComparisonDelta`).

## Model

| member | source | states |
|---|---|---|
| Js.ToInt32 | src/components/UsageBreakdown.jsx:50-51 | the or-with-zero conversion yields a signed 32-bit value congruent to its input modulo 2^32 |
| Js.NatToString | src/components/UsageBreakdown.jsx:44 | the decimal form of a number used in `${i}`: at least one digit, only digits, no leading zero, a single digit exactly below 10 |
| Js.ParseNatToString | src/components/UsageBreakdown.jsx:44 | reading the decimal form back gives the number again |
| Js.NatToStringInjective | src/components/Forecast.jsx:64 | distinct numbers have distinct decimal forms (used by the hour-label lemmas) |
| Js.Lower | src/components/Chatbot.jsx:161 | `toLowerCase` keeps the length, lowers each character on its own and leaves no upper-case letter |
| Js.Contains | src/components/Chatbot.jsx:163-199 | `includes` as a substring test, characterised both ways by ContainsIff |
| Js.Trim | src/components/Chatbot.jsx:212 | `trim()` is no longer than its input, has no white space at either end, and is the input itself when the input has none |
| Js.ContainsIff | src/components/Chatbot.jsx:163-199 | `includes` holds exactly when the keyword occurs at some position of the text |
| Js.TrimEmptyIff | src/components/Chatbot.jsx:212 | a string trims to "" exactly when every character is ECMAScript white space |
| Js.ToFixedTenths | src/components/UsageBreakdown.jsx:80-83 | `toFixed(1)` gives the nearest tenth, halves rounded away from zero |
| SeededRandom.Hash | src/components/UsageBreakdown.jsx:47-52 | the hash of any seed is a signed 32-bit integer |
| SeededRandom.HashStepIsMul31 | src/components/UsageBreakdown.jsx:50-51 | the shift, subtract, add and wrap step equals wrap32(31 * hash + code) |
| SeededRandom.HashIsWrappedPoly | src/components/UsageBreakdown.jsx:47-52 | wrapping at every step gives the wrapped base-31 polynomial of the seed's code units |
| SeededRandom.ComputeHash | src/components/UsageBreakdown.jsx:47-52 | the loop returns a 32-bit value equal to the wrapped polynomial of the seed |
| SeededRandom.PseudoRandom | src/components/UsageBreakdown.jsx:47-55 | every draw lies in [0, 1) and depends on the seed only through its hash |
| SeededRandom.SeedsWithCongruentPolyCollide | src/components/UsageBreakdown.jsx:47-55 | seeds whose polynomials agree modulo 2^32 draw the same value |
| Environment.DaysEndingAt | src/components/UsageBreakdown.jsx:35-39 | n consecutive days, oldest first, the last being the given day |
| Environment.ConsecutiveLabelsDistinct | src/components/UsageBreakdown.jsx:35-39 | the labels of at most seven consecutive days are pairwise distinct |
| UsageData.LastMonthAverageConsistent | src/components/UsageBreakdown.jsx:94-100 | the stated total 55 is the sum of the four categories, all positive |
| UsageData.HourlyAverage | src/components/UsageBreakdown.jsx:269-274 | each category of the hourly comparison times 24 is the daily average's category |
| UsageData.WeekDays | src/components/UsageBreakdown.jsx:29-41 | seven consecutive days ending at today minus 7 * offset |
| UsageData.WeekDaysShift | src/components/UsageBreakdown.jsx:29-41 | offset + 1 moves every day of the window back by exactly 7 |
| UsageData.WeekLabels | src/components/UsageBreakdown.jsx:29-43 | seven labels, label k being the short label of day today - 7 * offset - 6 + k |
| UsageData.WeekLabelsDistinct | src/components/UsageBreakdown.jsx:29-43 | the seven labels of a window are pairwise distinct |
| UsageData.Bucket | src/components/UsageBreakdown.jsx:63-66 | floor(p * width) of a draw in [0, 1) is in [0, width) |
| UsageData.WeeklyEntry | src/components/UsageBreakdown.jsx:58-70 | every weekly value is whole, with AC 20-29, Kitchen 15-22, Laundry 10-14, Other 5-7, so all are positive |
| UsageData.HourLabels | src/components/UsageBreakdown.jsx:44 | 24 labels "0:00" to "23:00" in hour order |
| UsageData.HourLabel | src/components/UsageBreakdown.jsx:44 | the unpadded hour followed by ":00", four characters exactly for hours below 10 |
| UsageData.HourLabelInjective | src/components/UsageBreakdown.jsx:44 | different hours have different labels |
| UsageData.RoundedDrawBands | src/components/UsageBreakdown.jsx:80-83 | each rounded draw lands in its band: 2.0-7.0, 1.0-4.0, 0.5-2.5, 0.5-1.5 |
| UsageData.HourlyEntry | src/components/UsageBreakdown.jsx:75-87 | every hourly value is in its band, and the `Math.max` floors never change a value |
| UsageData.HourlyData | src/components/UsageBreakdown.jsx:75-87 | 24 entries for a date, all in band |
| UsageData.SumTenthsBounds | src/components/UsageBreakdown.jsx:237-243 | a sum of n in-band hours lies between n times the lower and n times the upper band edges |
| UsageData.DailyTotal | src/components/UsageBreakdown.jsx:237-244 | the 24-hour sum has AC 48-168, Kitchen 24-96, Laundry 12-60 and Other 12-36 kWh, all positive |
| UsageData.SumTenths | src/components/UsageBreakdown.jsx:237-243 | the category-wise `forEach` sum in list order, bounded by SumTenthsBounds and matched to the line by SumOfTotals |
| UsageSelection.Init | src/components/UsageBreakdown.jsx:7-24 | mount state: nothing selected, no comparison, week 0, today's label as title and today's hours, the constant 45/30/15/10 breakdown totalling 100 |
| UsageSelection.WeeklyChartClick | src/components/UsageBreakdown.jsx:195-227 | no element gives no change; a new bar is selected with its day entry, the daily comparison, its date and no hour; the selected bar deselects, dropping the comparison and returning to today, with breakdown and hour untouched; the week is never touched |
| UsageSelection.HourlyChartClick | src/components/UsageBreakdown.jsx:229-278 | a new hour loads that hour's entry against the average over 24; the selected hour deselects to the 24-hour sum against the daily average; bar, dates and week are never touched |
| UsageSelection.PickHourlyDate | src/components/UsageBreakdown.jsx:469-475 | the picked date is shown; both selections and the comparison are cleared; the breakdown and week are kept |
| UsageSelection.PreviousWeekClick | src/components/UsageBreakdown.jsx:355 | the offset grows by one and nothing else changes |
| UsageSelection.NextWeekClick | src/components/UsageBreakdown.jsx:365 | the offset shrinks by one but not below 0, and nothing else changes |
| UsageSelection.Step | src/components/UsageBreakdown.jsx:195-278 | one event through its handler; only the week buttons move the window, by at most one, and they change nothing else |
| UsageSelection.Run | src/components/UsageBreakdown.jsx:195-278 | after n events the offset has grown by at most n; without week-button events it is unchanged |
| UsageSelection.ConsistentComparisonPositive | src/components/UsageBreakdown.jsx:417-419 | in a consistent state every comparison category is positive, so the delta never divides by zero |
| UsageSelection.InitConsistent | src/components/UsageBreakdown.jsx:7-24 | the mount state is consistent |
| UsageSelection.StepConsistent | src/components/UsageBreakdown.jsx:195-278 | every event preserves consistency: positive breakdown, a known comparison, a valid hour label, a selected bar that is the title date |
| UsageSelection.RunConsistent | src/components/UsageBreakdown.jsx:195-278 | every state reachable by any sequence of events is consistent |
| UsageSelection.WeeklyClickTwice | src/components/UsageBreakdown.jsx:200-225 | two clicks on an unselected bar clear both selections and the comparison and return to today, but leave that day's entry as breakdown |
| UsageSelection.HourlyClickTwice | src/components/UsageBreakdown.jsx:234-276 | two clicks on an unselected hour leave no hour selected and the day's sum against the daily average; nothing else changes |
| UsageSelection.WeekNavigationInverse | src/components/UsageBreakdown.jsx:355-366 | next undoes previous; previous undoes next except at week 0, where next does nothing |
| UsageSelection.DrillDownAndBack | src/components/UsageBreakdown.jsx:195-278 | bar, hour, same hour: the bar stays selected and the panel shows that day's 24-hour sum against the daily average |
| UsageView.WeeklySeries | src/components/UsageBreakdown.jsx:103-132 | seven stacks; every segment and every stack a whole number of kWh, each stack between 50 and 72 |
| UsageView.BarFullColour | src/components/UsageBreakdown.jsx:109 | a bar is full colour exactly when nothing is selected or it is the selected date (used by the highlight lemmas) |
| UsageView.ClickedBarIsShown | src/components/UsageBreakdown.jsx:108-127 | clicking an unselected bar loads the stack drawn at that position into the panel and leaves only that bar in full colour |
| UsageView.BarHighlight | src/components/UsageBreakdown.jsx:109-127 | all bars are full colour when nothing is selected; two distinct bars are never both full colour under a selection; a selection outside the window dims every bar |
| UsageView.PointFullColour | src/components/UsageBreakdown.jsx:144-147 | a point is full colour exactly when no hour is selected or it is the selected hour (used by PointHighlight) |
| UsageView.PointRadius | src/components/UsageBreakdown.jsx:147 | radius 6 exactly at the selected hour, 3 everywhere else |
| UsageView.LineFullColour | src/components/UsageBreakdown.jsx:144 | the line is full colour exactly when no hour is selected (used by PointHighlight) |
| UsageView.PointHighlight | src/components/UsageBreakdown.jsx:144-147 | at most one of the 24 points has radius 6; two points are both full colour only when no hour is selected |
| UsageView.HourlyTotals | src/components/UsageBreakdown.jsx:140-143 | 24 line values, each between 4.0 and 15.0 kWh |
| UsageView.ClickedPointIsShown | src/components/UsageBreakdown.jsx:140-147 | clicking an unselected point loads the hour drawn at that position on the line into the panel, and afterwards only that point has radius 6 |
| UsageView.SumOfTotals | src/components/UsageBreakdown.jsx:237-243 | summing the per-hour totals equals the total of the category-wise sums |
| UsageView.HourlyTotalsMatchDailyTotal | src/components/UsageBreakdown.jsx:237-244 | the area under the hourly line equals the deselected-hour day total |
| UsageView.Share | src/components/UsageBreakdown.jsx:410-411 | for a positive total the share times the total is 100 times the category's value; for a positive breakdown every share lies strictly between 0 and 100 |
| UsageView.SharesSumTo100 | src/components/UsageBreakdown.jsx:409-411 | for a positive total the four shares add up to 100 |
| UsageView.ComparisonDelta | src/components/UsageBreakdown.jsx:417-424 | up iff the difference is at least +0.05 %, down iff at most -0.05 %; red and '+' exactly with up |
| UsageView.DeltaFollowsSign | src/components/UsageBreakdown.jsx:419-424 | up implies more usage than the comparison, down implies less, equal values are flat |
| UsageView.Panel | src/components/UsageBreakdown.jsx:407-431 | four rows in category order; row k carries category k's value and share, and, exactly when a comparison exists, the delta of that value against category k of the comparison; shares of a positive total sum to 100 |
| UsageView.PanelDefinedWhenReachable | src/components/UsageBreakdown.jsx:407-419 | in every reachable state the panel's total and comparison are positive |
| UsageView.PanelTitle | src/components/UsageBreakdown.jsx:395 | the title date without an hour; with an hour, the view date, then exactly " @ ", then the hour |
| Monitoring.FirstHighSubmeter | src/components/Monitoring.jsx:51-52 | the first submeter over 5 kW, all earlier ones being within the limit |
| Monitoring.AlertFor | src/components/Monitoring.jsx:46-54 | live > 12 gives the live alert; otherwise a voltage outside [230, 250] gives the voltage alert; otherwise the lowest-index submeter over 5 is named |
| Monitoring.NoAlertIff | src/components/Monitoring.jsx:46-56 | no alert exactly when live <= 12, voltage is in [230, 250] and every submeter is <= 5 |
| Monitoring.Slide | src/components/Monitoring.jsx:36-39 | the window keeps its length, drops the oldest point and ends with the new value |
| Monitoring.Tick | src/components/Monitoring.jsx:27-56 | a tick slides the window, replaces voltage and submeters, adds the increment and sets the alert |
| Monitoring.Init | src/components/Monitoring.jsx:14-19 | 30 points, normal voltage and total, no alert |
| Monitoring.IsVoltageNormal | src/components/Monitoring.jsx:64 | the voltage card is green exactly between 230 and 250 V inclusive (used by AlertAgreesWithStatus and NoAlertIff) |
| Monitoring.IsTotalNormal | src/components/Monitoring.jsx:65 | the total card is green exactly below 20 kWh (used by Init) |
| Monitoring.IsLiveNormal | src/components/Monitoring.jsx:66 | the live card is green exactly when the newest point is below 12 kW (used by LiveBoundaryGap) |
| Monitoring.IsSubmeterNormal | src/components/Monitoring.jsx:158 | a submeter card is green exactly at or below 5 kW (used by AlertFor and NoAlertIff) |
| Monitoring.InitialBannerIgnoresSubmeters | src/components/Monitoring.jsx:16-19 | at mount the banner shows no alert although the third submeter (5.2 kW) is over the limit |
| Monitoring.LiveBoundaryGap | src/components/Monitoring.jsx:47-66 | at exactly 12 kW there is no live alert yet the live status is not normal |
| Monitoring.AlertAgreesWithStatus | src/components/Monitoring.jsx:46-66 | each alert's reading shows as not normal on its status card |
| Monitoring.RunTicksInvariant | src/components/Monitoring.jsx:36-42 | over in-range ticks the window stays at 30 points and the total never decreases; over n > 0 ticks it rises by strictly less than 0.01 * n |
| Monitoring.RunTicks | src/components/Monitoring.jsx:25-56 | successive ticks keep a non-empty window's length, and the banner shows the alert of the last tick's readings |
| Forecast.Pad2 | src/components/Forecast.jsx:64 | two digits, with a leading '0' exactly below 10 |
| Forecast.DayLabel | src/components/Forecast.jsx:64 | a five-character "HH:00" label of two digits, with a leading '0' exactly below 10 |
| Forecast.Pad2Injective | src/components/Forecast.jsx:64 | different numbers below 100 pad differently |
| Forecast.Labels | src/components/Forecast.jsx:62-64 | 7 labels for the week range, 24 labels "00:00" to "23:00" for the day range |
| Forecast.DayLabelsDistinct | src/components/Forecast.jsx:64 | the 24 day labels are pairwise distinct |
| Forecast.Init | src/components/Forecast.jsx:36-39 | both charts start on the week range with nothing selected, and both satisfy the chart invariant (data fits the range, selection inside the data) |
| Forecast.FindMainElement | src/components/Forecast.jsx:181 | the first element of dataset 0, or none when no element belongs to dataset 0 |
| Forecast.Click | src/components/Forecast.jsx:176-205 | the selected index deselects, any other index is selected, and clicks without a dataset-0 element change nothing |
| Forecast.SwitchRange | src/components/Forecast.jsx:321-328 | a range button always clears the selection; data is redrawn only when the range changes |
| Forecast.Step | src/components/Forecast.jsx:176-205 | a click or range button on one chart leaves the other chart unchanged |
| Forecast.StepConsistent | src/components/Forecast.jsx:67-91 | every event that fits the drawn data preserves the chart invariant established by Init: data length matches the range's label count and the selection stays inside the data |
| Forecast.ClickTwiceFromNothing | src/components/Forecast.jsx:184-188 | from no selection, the same click twice returns to no selection |
| Forecast.UsageThreshold | src/components/Forecast.jsx:88-90 | 15.5 on the week range, 15.5 / 24 on the day range |
| Forecast.EfficiencyThreshold | src/components/Forecast.jsx:91 | 82 on either range |
| Forecast.ThresholdLine | src/components/Forecast.jsx:120 | the comparison line has one value per data point, all equal to the threshold |
| Forecast.UsageBarRed | src/components/Forecast.jsx:104-112 | a usage bar is red exactly when strictly above the threshold (used by ThresholdTies and WeekColours) |
| Forecast.EfficiencyPointGreen | src/components/Forecast.jsx:146-150 | an efficiency point is green exactly at or above the threshold (used by ThresholdTies and WeekColours) |
| Forecast.BarOpacity | src/components/Forecast.jsx:107-108 | full iff nothing or this index is selected, 0.5 otherwise |
| Forecast.PointOpacity | src/components/Forecast.jsx:145-146 | full iff nothing or this index is selected, 0.3 otherwise |
| Forecast.PointRadius | src/components/Forecast.jsx:152-155 | 6 exactly for the selected index, 3 otherwise |
| Forecast.AtMostOneEnlarged | src/components/Forecast.jsx:152-155 | two different points are never both enlarged |
| Forecast.ThresholdTies | src/components/Forecast.jsx:104-151 | a value exactly on the line is a green bar (strict rule) and a green point (non-strict rule) |
| Forecast.WeekColours | src/components/Forecast.jsx:66-91 | on the week range exactly Tuesday and Thursday are red bars and red points |
| Forecast.DiffTenths | src/components/Forecast.jsx:47 | the card's percentage difference rounded to one decimal, in tenths (used by SummaryCards and ArrowAgreesWithDiff) |
| Forecast.IsIncrease | src/components/Forecast.jsx:48 | the card's arrow points up exactly when the projection is strictly above last month (used by ArrowAgreesWithDiff) |
| Forecast.SummaryCards | src/components/Forecast.jsx:44-55 | the bill rises (+11.4 %) and efficiency improves (+7.9 %) |
| Forecast.ArrowAgreesWithDiff | src/components/Forecast.jsx:47-48 | a positive rounded difference means an increase, a negative one a decrease |
| Overview.AcTipColour | src/components/Overview.jsx:130-151 | primary above 30 degrees, info from 25 to 30, success below 25 |
| Overview.LaundryTipColour | src/components/Overview.jsx:154-168 | warning iff raining or humidity above 70, success otherwise |
| Overview.GenerateSmartTips | src/components/Overview.jsx:125-179 | exactly three tips, AC, laundry and appliances, the last always secondary |
| Overview.TipsMonotone | src/components/Overview.jsx:130-168 | hotter never weakens the AC tip; more humid or rainy never clears the laundry warning |
| Overview.ShippedTips | src/components/Overview.jsx:18-23 | with 32 degrees, 45 % and no rain the tips are primary, success, secondary |
| Overview.BadgeColour | src/components/Overview.jsx:186-187 | green iff the trend is good for the card's polarity, red otherwise |
| Overview.IsGood | src/components/Overview.jsx:186 | a trend is good exactly when it is "down" on a lower-is-better card and "up" otherwise (used by BadgeColour and PolarityFlips) |
| Overview.KpiTrendIcon | src/components/Overview.jsx:189-191 | up arrow iff "up", down arrow iff "down", a dash otherwise |
| Overview.PolarityFlips | src/components/Overview.jsx:186 | "down" is good only when lower is better, "up" only otherwise; no trend is good under both |
| Overview.ShippedCardsAreGood | src/components/Overview.jsx:268-301 | the three cards' trends are all good |
| Overview.Last7Days | src/components/Overview.jsx:35-43 | seven labels, oldest first, the last being today |
| Overview.Last7DaysIsCurrentWeek | src/components/Overview.jsx:35-43 | they equal the usage page's week window at offset 0 |
| Overview.PerformanceShape | src/components/Overview.jsx:47-89 | every series has 7 values, matching the 7 labels; the four categories stack to 50/45/60/40/45/35/30, above the average 42 exactly on days 1-3 and 5 |
| Overview.SplitMatchesInitialBreakdown | src/components/Overview.jsx:114-122 | the split sums to 100 and equals the usage page's initial breakdown |
| Chatbot.ReplyFor | src/components/Chatbot.jsx:158-202 | the appliances reply iff an appliances keyword occurs; the default iff no keyword of any group occurs |
| Chatbot.MentionsAny | src/components/Chatbot.jsx:163-199 | one group's chain of `includes` tests: some keyword of the group occurs in the text (used by ReplyFor and FirstMatch) |
| Chatbot.FirstMatch | src/components/Chatbot.jsx:163-202 | the reply of the first matching row, or the default when none matches |
| Chatbot.ReplyForIsFirstMatch | src/components/Chatbot.jsx:163-202 | the reply chain is first-match over the ordered table appliances, report, tips, forecast, greeting, thanks |
| Chatbot.ReplyIgnoresCase | src/components/Chatbot.jsx:161 | texts equal up to case get the same reply |
| Chatbot.GreetingMatchesInsideWords | src/components/Chatbot.jsx:192-198 | "this" contains "hi" and gets the greeting |
| Chatbot.Init | src/components/Chatbot.jsx:141-149 | the chat opens with the welcome message, empty input, no typing |
| Chatbot.Send | src/components/Chatbot.jsx:211-222 | blank input changes nothing; otherwise one user message with the untrimmed text is appended, the input is cleared, typing is shown and a reply is queued |
| Chatbot.SendIgnoredIff | src/components/Chatbot.jsx:212 | sending is a no-op exactly when the input is all white space |
| Chatbot.DeliverReply | src/components/Chatbot.jsx:204-208 | the oldest queued text gets exactly one bot message and typing is hidden |
| Chatbot.SuggestedClick | src/components/Chatbot.jsx:224-228 | only the input text changes; nothing is sent |
| Chatbot.Step | src/components/Chatbot.jsx:204-228 | one event through its handler; the message log only grows, by at most one message |
| Chatbot.Run | src/components/Chatbot.jsx:204-228 | over any run the log only grows, by at most one message per event |
| Chatbot.SendThenReply | src/components/Chatbot.jsx:211-222 | a send followed by its timer appends the user message and its reply |
| Chatbot.StepBalanced | src/components/Chatbot.jsx:204-228 | every event keeps the welcome first, only appends, and keeps user count + 1 = bot count + queued replies |
| Chatbot.RunBalanced | src/components/Chatbot.jsx:204-228 | the same over any sequence of events |
| Chatbot.RepliesMatchQuestions | src/components/Chatbot.jsx:141-222 | with no reply pending, the bot has answered every user message plus the welcome |

## Left out

- Chart.js rendering, chart options, tooltips and their callbacks, the canvas overlay plugin that draws last month's average on the weekly chart, and all JSX layout and CSS: these are presentational.
- The `Math.sin` / `Math.floor` fractional step of `pseudoRandom` is floating point. It is the `sinFraction` field of `Env`, assumed to return a value in [0, 1) (`FractionInRange`).
- `new Date()`, `toLocaleDateString`, `toISOString`, year re-parsing and timezone correction. These are the host's. Days are integers, and the label and ISO conversions are `Env` functions. Today is one fixed day for the whole session, although the page reads the clock again when a bar is deselected and when the week is recomputed, so a session running past midnight is not modelled. The labels of any seven consecutive days are assumed pairwise distinct (`LabelsDistinctWithinWeek`).
- `Math.random` draws on the monitoring and forecast pages are inputs: the `Sample` of a tick and the `draws` of a range switch.
- `setInterval` and `setTimeout` are modelled as discrete events: a monitoring tick and a chat reply timer. The overview clock and its one-minute refresh are not modelled.
- Floating-point arithmetic is modelled with exact reals, and `toFixed(1)` as exact rounding of the real value. Values that sit on a rounding boundary only because of binary floating point are not modelled.
- `UsageView.Share`: the share is the exact percentage, not its `toFixed(1)` string, so the displayed shares can miss 100 by rounding.
- `UsageView.HourlyTotals`: the line value is the exact sum in tenths, not the `toFixed(2)` string of a floating-point sum.
- Monitoring's `toFixed` texts, the submeter progress bar width and the chart y-range are presentational. The alert is modelled by its kind and the reading that raised it.
- Forecast's tooltip percentage and the `toFixed(2)` string form of day-range usage draws are not modelled; draws are taken as reals.
- Chat reply texts are represented by which reply was chosen. Markdown rendering, message ids from `Date.now()` and the `animated` flag are not modelled. The "Enter" key and the send button both trigger `SendClick`.
- Lower-casing is ASCII-only. Strings are sequences of Dafny characters, not UTF-16 code units, which matters for the hash only outside the Basic Multilingual Plane.
- The ML scripts, the trackers and statistics pages and the application shell are not part of this model. They are data-science scripts, static mock data and tab routing.

=== FILE: chatbot.dfy ===
/** The energy assistant chat: a keyword table chooses a canned reply, and a
    small state machine appends user and bot messages. Reply texts are
    represented by which reply was chosen; the one-second reply delay is a
    separate event. */
module Chatbot {
  import opened Js

  /** Which canned text a bot message carries. */
  datatype Reply =
    | Welcome
    | AppliancesReply
    | ReportReply
    | TipsReply
    | ForecastReply
    | GreetingReply
    | ThanksReply
    | DefaultReply

  const AppliancesKeywords: seq<string> := ["heavy appliances", "best hour", "best time"]
  const ReportKeywords: seq<string> := ["report", "last month", "summary"]
  const TipsKeywords: seq<string> := ["reduce", "bill", "tips", "save"]
  const ForecastKeywords: seq<string> := ["forecast", "next week", "prediction"]
  const GreetingKeywords: seq<string> := ["hello", "hi", "hey"]
  const ThanksKeywords: seq<string> := ["thank"]

  const SuggestedQuestions: seq<string> := [
    "When is the best hour to use heavy appliances?",
    "Give me a short report of my usage last month.",
    "How can I reduce my energy bill?",
    "Forecast my usage for next week."]

  /** Some keyword of the group occurs in the text. */
  predicate MentionsAny(text: string, keywords: seq<string>) {
    exists k :: 0 <= k < |keywords| && Contains(text, keywords[k])
  }

  // ---------------------------------------------------------------------
  // Choosing a reply
  // ---------------------------------------------------------------------

  /** `generateBotResponse`: the lower-cased text is tested against the keyword
      groups in order and the first group that matches picks the reply; with
      no match the default reply is used. */
  function ReplyFor(text: string): (r: Reply)
    ensures r != Welcome
    ensures r == AppliancesReply <==> MentionsAny(Lower(text), AppliancesKeywords)
    ensures r == DefaultReply <==>
      && !MentionsAny(Lower(text), AppliancesKeywords) && !MentionsAny(Lower(text), ReportKeywords)
      && !MentionsAny(Lower(text), TipsKeywords) && !MentionsAny(Lower(text), ForecastKeywords)
      && !MentionsAny(Lower(text), GreetingKeywords) && !MentionsAny(Lower(text), ThanksKeywords)
  {
    var lower := Lower(text);
    if MentionsAny(lower, AppliancesKeywords) then AppliancesReply
    else if MentionsAny(lower, ReportKeywords) then ReportReply
    else if MentionsAny(lower, TipsKeywords) then TipsReply
    else if MentionsAny(lower, ForecastKeywords) then ForecastReply
    else if MentionsAny(lower, GreetingKeywords) then GreetingReply
    else if MentionsAny(lower, ThanksKeywords) then ThanksReply
    else DefaultReply
  }

  /** The same rules as an ordered table of (reply, keywords) rows. */
  const KeywordTable: seq<(Reply, seq<string>)> := [
    (AppliancesReply, AppliancesKeywords),
    (ReportReply, ReportKeywords),
    (TipsReply, TipsKeywords),
    (ForecastReply, ForecastKeywords),
    (GreetingReply, GreetingKeywords),
    (ThanksReply, ThanksKeywords)]

  /** First-match lookup in an ordered table: the reply of the first row whose
      keywords occur in the text, or the default. */
  function FirstMatch(text: string, table: seq<(Reply, seq<string>)>): (r: Reply)
    ensures r == DefaultReply || exists g :: 0 <= g < |table| && table[g].0 == r
    ensures (forall g :: 0 <= g < |table| ==> !MentionsAny(text, table[g].1)) ==> r == DefaultReply
    ensures forall g :: (0 <= g < |table| && MentionsAny(text, table[g].1)
      && (forall h :: 0 <= h < g ==> !MentionsAny(text, table[h].1))) ==> r == table[g].0
  {
    if |table| == 0 then DefaultReply
    else if MentionsAny(text, table[0].1) then table[0].0
    else
      var r := FirstMatch(text, table[1..]);
      assert forall g :: 1 <= g < |table| ==> table[1..][g - 1] == table[g];
      r
  }

  /** The reply chain is exactly first-match over the table, applied to the
      lower-cased text. */
  lemma ReplyForIsFirstMatch(text: string)
    ensures ReplyFor(text) == FirstMatch(Lower(text), KeywordTable)
  {
    var lower := Lower(text);
    var t := KeywordTable;
    assert t == [t[0]] + t[1..] && t[1..] == [t[1]] + t[2..] && t[2..] == [t[2]] + t[3..];
    assert t[3..] == [t[3]] + t[4..] && t[4..] == [t[4]] + t[5..] && t[5..] == [t[5]] + t[6..];
    assert t[6..] == [];
    assert FirstMatch(lower, t[5..]) == if MentionsAny(lower, ThanksKeywords) then ThanksReply else DefaultReply;
    assert FirstMatch(lower, t[4..]) ==
      if MentionsAny(lower, GreetingKeywords) then GreetingReply else FirstMatch(lower, t[5..]);
    assert FirstMatch(lower, t[3..]) ==
      if MentionsAny(lower, ForecastKeywords) then ForecastReply else FirstMatch(lower, t[4..]);
    assert FirstMatch(lower, t[2..]) ==
      if MentionsAny(lower, TipsKeywords) then TipsReply else FirstMatch(lower, t[3..]);
    assert FirstMatch(lower, t[1..]) ==
      if MentionsAny(lower, ReportKeywords) then ReportReply else FirstMatch(lower, t[2..]);
    assert FirstMatch(lower, t) ==
      if MentionsAny(lower, AppliancesKeywords) then AppliancesReply else FirstMatch(lower, t[1..]);
  }

  /** Matching ignores case: texts that lower-case alike get the same reply, and
      lower-casing first changes nothing. */
  lemma ReplyIgnoresCase(a: string, b: string)
    ensures Lower(a) == Lower(b) ==> ReplyFor(a) == ReplyFor(b)
    ensures ReplyFor(Lower(a)) == ReplyFor(a)
  {
    LowerIdempotent(a);
  }

  /** Greeting keywords match inside words: "this" contains "hi" and nothing
      from an earlier group, so it is answered with the greeting. */
  lemma GreetingMatchesInsideWords()
    ensures ReplyFor("this") == GreetingReply
  {
    var lower := Lower("this");
    assert lower == "this" by {
      assert forall i :: 0 <= i < 4 ==> lower[i] == LowerChar("this"[i]);
    }
    ContainsAt(lower, "hi", 1);
    assert Contains(lower, GreetingKeywords[1]);
    forall k | 0 <= k < |AppliancesKeywords| ensures !Contains(lower, AppliancesKeywords[k]) {
      ContainsIff(lower, AppliancesKeywords[k]);
    }
    forall k | 0 <= k < |ReportKeywords| ensures !Contains(lower, ReportKeywords[k]) {
      ContainsIff(lower, ReportKeywords[k]);
    }
    forall k | 0 <= k < |ForecastKeywords| ensures !Contains(lower, ForecastKeywords[k]) {
      ContainsIff(lower, ForecastKeywords[k]);
    }
    forall k | 0 <= k < |TipsKeywords| ensures !Contains(lower, TipsKeywords[k]) {
      ContainsIff(lower, TipsKeywords[k]);
      assert !OccursAt(lower, TipsKeywords[k], 0);
    }
  }

  // ---------------------------------------------------------------------
  // The conversation
  // ---------------------------------------------------------------------

  datatype Message = UserMessage(text: string) | BotMessage(reply: Reply)

  /** The chat: the message list, the input box, the typing indicator, and the
      texts whose one-second reply timers have not fired yet, oldest first. */
  datatype ChatState = ChatState(messages: seq<Message>, input: string, isTyping: bool, pending: seq<string>)

  /** The chat opens with the welcome message and an empty input. */
  function Init(): (s: ChatState)
    ensures s.messages == [BotMessage(Welcome)] && s.input == [] && !s.isTyping && s.pending == []
  {
    ChatState([BotMessage(Welcome)], [], false, [])
  }

  /** `handleSend`: input that trims to nothing is ignored; otherwise the
      untrimmed text is appended as one user message, the input is cleared,
      the typing indicator shown and the reply timer started. */
  function Send(s: ChatState): (t: ChatState)
    ensures Trim(s.input) == [] ==> t == s
    ensures Trim(s.input) != [] ==>
      && t.messages == s.messages + [UserMessage(s.input)]
      && t.input == [] && t.isTyping
      && t.pending == s.pending + [s.input]
  {
    if Trim(s.input) == [] then s
    else ChatState(s.messages + [UserMessage(s.input)], [], true, s.pending + [s.input])
  }

  /** Sending does nothing exactly when the input is all white space. */
  lemma SendIgnoredIff(s: ChatState)
    ensures Send(s) == s <==> forall i :: 0 <= i < |s.input| ==> IsJsSpace(s.input[i])
  {
    TrimEmptyIff(s.input);
    if Trim(s.input) != [] {
      assert |Send(s).messages| == |s.messages| + 1;
    }
  }

  /** The oldest reply timer fires: the bot message for its text is appended
      and the typing indicator is hidden (even if other replies are still
      pending). With no timer running nothing happens. */
  function DeliverReply(s: ChatState): (t: ChatState)
    ensures |s.pending| == 0 ==> t == s
    ensures |s.pending| > 0 ==>
      && t.messages == s.messages + [BotMessage(ReplyFor(s.pending[0]))]
      && !t.isTyping && t.input == s.input
      && t.pending == s.pending[1..]
  {
    if |s.pending| == 0 then s
    else ChatState(s.messages + [BotMessage(ReplyFor(s.pending[0]))], s.input, false, s.pending[1..])
  }

  /** `handleSuggestedClick`: only the input text changes; nothing is sent. */
  function SuggestedClick(s: ChatState, question: string): (t: ChatState)
    ensures t.input == question
    ensures t.messages == s.messages && t.isTyping == s.isTyping && t.pending == s.pending
  {
    s.(input := question)
  }

  datatype Event = Type(text: string) | SendClick | ReplyTimer | Suggested(index: nat)

  /** The log only grows, by at most one message per event. */
  function Step(s: ChatState, e: Event): (t: ChatState)
    ensures s.messages <= t.messages && |t.messages| <= |s.messages| + 1
  {
    match e
    case Type(text) => s.(input := text)
    case SendClick => Send(s)
    case ReplyTimer => DeliverReply(s)
    case Suggested(i) => if i < |SuggestedQuestions| then SuggestedClick(s, SuggestedQuestions[i]) else s
  }

  function Run(s: ChatState, events: seq<Event>): (t: ChatState)
    ensures s.messages <= t.messages && |t.messages| <= |s.messages| + |events|
    decreases |events|
  {
    if |events| == 0 then s else Run(Step(s, events[0]), events[1..])
  }

  /** Sending a real message and letting its timer fire adds the user's message
      followed by the matching reply. */
  lemma SendThenReply(s: ChatState)
    requires Trim(s.input) != [] && s.pending == []
    ensures var t := DeliverReply(Send(s));
      && t.messages == s.messages + [UserMessage(s.input), BotMessage(ReplyFor(s.input))]
      && !t.isTyping && t.pending == [] && t.input == []
  {
    var sent := Send(s);
    assert sent.messages == s.messages + [UserMessage(s.input)];
    assert sent.pending == [s.input];
    var t := DeliverReply(sent);
    assert t.messages == sent.messages + [BotMessage(ReplyFor(s.input))];
    assert t.messages == s.messages + [UserMessage(s.input), BotMessage(ReplyFor(s.input))];
  }

  // ---------------------------------------------------------------------
  // Conversation invariants
  // ---------------------------------------------------------------------

  function CountUsers(messages: seq<Message>): nat {
    if |messages| == 0 then 0
    else CountUsers(messages[..|messages| - 1]) + (if messages[|messages| - 1].UserMessage? then 1 else 0)
  }

  function CountBots(messages: seq<Message>): nat {
    if |messages| == 0 then 0
    else CountBots(messages[..|messages| - 1]) + (if messages[|messages| - 1].BotMessage? then 1 else 0)
  }

  /** The welcome message stays first, and every user message is answered by
      exactly one bot message once its timer has fired. */
  predicate Balanced(s: ChatState) {
    && |s.messages| > 0 && s.messages[0] == BotMessage(Welcome)
    && CountUsers(s.messages) + 1 == CountBots(s.messages) + |s.pending|
  }

  lemma StepBalanced(s: ChatState, e: Event)
    requires Balanced(s)
    ensures Balanced(Step(s, e))
    ensures s.messages <= Step(s, e).messages
  {
    var t := Step(s, e);
    if |t.messages| > |s.messages| {
      assert t.messages[..|t.messages| - 1] == s.messages;
    }
  }

  /** Along any sequence of events the message list only grows and stays
      balanced. */
  lemma {:induction false} RunBalanced(s: ChatState, events: seq<Event>)
    requires Balanced(s)
    ensures Balanced(Run(s, events))
    ensures s.messages <= Run(s, events).messages
    decreases |events|
  {
    if |events| > 0 {
      StepBalanced(s, events[0]);
      RunBalanced(Step(s, events[0]), events[1..]);
    }
  }

  /** From the opening state, once no reply is pending, the bot has answered
      every user message and said one more: the welcome. */
  lemma RepliesMatchQuestions(events: seq<Event>)
    ensures var t := Run(Init(), events);
      t.pending == [] ==> CountBots(t.messages) == CountUsers(t.messages) + 1
  {
    assert Init().messages[..0] == [];
    RunBalanced(Init(), events);
  }
}

=== FILE: environment.dfy ===
/** What the components read from the browser rather than compute: the clock,
    the en-US date formatting, and the `Math.sin` step of the seeded generator.
    Days are integers (consecutive days differ by one); the formatting and the
    fractional step are functions supplied by the host. */
module Environment {

  datatype Env = Env(
    /** The current day, as read by `new Date()`. */
    today: int,
    /** `toLocaleDateString('en-US', { month: 'short', day: 'numeric' })` of a day, e.g. "Jan 5". */
    dayLabel: int -> string,
    /** `toISOString().split('T')[0]` of a day, e.g. "2024-11-15". */
    dayIso: int -> string,
    /** A short label re-parsed with the current year and converted to an ISO date
        (the week chart's timezone-corrected conversion). */
    labelToIso: string -> string,
    /** An ISO date parsed by `new Date(...)` and formatted back to a short label. */
    isoToLabel: string -> string,
    /** `x - Math.floor(x)` for `x = Math.sin(hash) * 10000`. */
    sinFraction: int -> real)

  /** The fractional step always lands in [0, 1). */
  ghost predicate FractionInRange(env: Env) {
    forall h :: 0.0 <= env.sinFraction(h) < 1.0
  }

  /** Short labels of days less than a week apart differ (a month and a day of
      the month never repeat within seven consecutive days). */
  ghost predicate LabelsDistinctWithinWeek(env: Env) {
    forall a, b :: a < b < a + 7 ==> env.dayLabel(a) != env.dayLabel(b)
  }

  /** The n consecutive days ending at `last`, oldest first: the shape of the
      page's `for (let i = n - 1; i >= 0; i--) push(last - i)` loops. */
  function DaysEndingAt(last: int, n: nat): (days: seq<int>)
    ensures |days| == n
    ensures forall k :: 0 <= k < n ==> days[k] == last - (n - 1) + k
    decreases n
  {
    if n == 0 then [] else DaysEndingAt(last - 1, n - 1) + [last]
  }

  /** The short labels of a sequence of days. */
  function LabelsOf(env: Env, days: seq<int>): (labels: seq<string>)
    ensures |labels| == |days|
    ensures forall k :: 0 <= k < |days| ==> labels[k] == env.dayLabel(days[k])
  {
    seq(|days|, k requires 0 <= k < |days| => env.dayLabel(days[k]))
  }

  /** Labels of at most seven consecutive days are pairwise distinct. */
  lemma ConsecutiveLabelsDistinct(env: Env, last: int, n: nat, i: int, j: int)
    requires LabelsDistinctWithinWeek(env)
    requires n <= 7
    requires 0 <= i < n && 0 <= j < n && i != j
    ensures LabelsOf(env, DaysEndingAt(last, n))[i] != LabelsOf(env, DaysEndingAt(last, n))[j]
  {
    var days := DaysEndingAt(last, n);
    if i < j {
      assert days[i] < days[j] < days[i] + 7;
    } else {
      assert days[j] < days[i] < days[j] + 7;
    }
  }
}

=== FILE: forecast.dfy ===
/** The forecast page: a projected-usage bar chart and a projected-efficiency
    line chart, each switchable between a week and a day range, each with one
    optionally selected index, compared against last month's averages. */
module Forecast {
  import opened Js

  datatype Range = Week | Day

  /** Last month's daily average usage in kWh, and its efficiency score. */
  const LastMonthAvgUsage: real := 15.5
  const LastMonthAvgEfficiency: real := 82.0

  /** The fixed week series of both charts. */
  const WeekUsage: seq<real> := [14.0, 16.5, 13.0, 18.0, 15.0, 12.0, 14.5]
  const WeekEfficiency: seq<real> := [85.0, 80.0, 88.0, 75.0, 82.0, 90.0, 84.0]

  const WeekdayLabels: seq<string> := ["Mon", "Tue", "Wed", "Thu", "Fri", "Sat", "Sun"]

  /** Number of points a range shows. */
  function PointCount(r: Range): nat {
    match r
    case Week => 7
    case Day => 24
  }

  // ---------------------------------------------------------------------
  // Labels
  // ---------------------------------------------------------------------

  /** `padStart(2, '0')` of a number below 100. */
  function Pad2(n: nat): (s: string)
    requires n < 100
    ensures |s| == 2
    ensures forall i :: 0 <= i < 2 ==> IsDigit(s[i])
    ensures s[0] == '0' <==> n < 10
  {
    if n < 10 then "0" + NatToString(n) else NatToString(n)
  }

  lemma Pad2Injective(a: nat, b: nat)
    requires a < 100 && b < 100
    requires Pad2(a) == Pad2(b)
    ensures a == b
  {
    assert a < 10 <==> b < 10;
    if a < 10 {
      assert NatToString(a) == Pad2(a)[1..];
      assert NatToString(b) == Pad2(b)[1..];
    } else {
      assert NatToString(a) == Pad2(a);
    }
    NatToStringInjective(a, b);
  }

  /** The day range's hour labels, "00:00" to "23:00". */
  function DayLabel(h: nat): (text: string)
    requires h < 24
    ensures |text| == 5 && text[2..] == ":00"
    ensures IsDigit(text[0]) && IsDigit(text[1])
    ensures text[0] == '0' <==> h < 10
  {
    Pad2(h) + ":00"
  }

  /** The x-axis labels of a range: the weekday names, or 24 hour labels. */
  function Labels(r: Range): (labels: seq<string>)
    ensures |labels| == PointCount(r)
    ensures r == Day ==> forall h :: 0 <= h < 24 ==> labels[h] == DayLabel(h)
  {
    match r
    case Week => WeekdayLabels
    case Day => seq(24, h requires 0 <= h < 24 => DayLabel(h))
  }

  /** The day range's labels are pairwise distinct, so a selected index names
      one hour. */
  lemma DayLabelsDistinct(i: nat, j: nat)
    requires i < 24 && j < 24 && i != j
    ensures Labels(Day)[i] != Labels(Day)[j]
  {
    if DayLabel(i) == DayLabel(j) {
      assert Pad2(i) == DayLabel(i)[..2];
      assert Pad2(j) == DayLabel(j)[..2];
      Pad2Injective(i, j);
    }
  }

  // ---------------------------------------------------------------------
  // Chart state and events
  // ---------------------------------------------------------------------

  /** One chart: its range, its selected index (`null` as None) and the data
      currently memoised for that range. */
  datatype Chart = Chart(range: Range, selected: Option<nat>, values: seq<real>)

  datatype State = State(usage: Chart, efficiency: Chart)

  /** An element Chart.js reports under the click: its dataset and data index. */
  datatype ChartElement = ChartElement(datasetIndex: nat, index: nat)

  /** Both charts open on the week range with nothing selected. */
  function Init(): (s: State)
    ensures s.usage.selected == None && s.efficiency.selected == None
    ensures s.usage.range == Week && s.efficiency.range == Week
    ensures ChartConsistent(s.usage) && ChartConsistent(s.efficiency)
  {
    State(Chart(Week, None, WeekUsage), Chart(Week, None, WeekEfficiency))
  }

  /** `elements.find(el => el.datasetIndex === 0)`. */
  function FindMainElement(elements: seq<ChartElement>): (found: Option<ChartElement>)
    ensures found.None? <==> forall k :: 0 <= k < |elements| ==> elements[k].datasetIndex != 0
    ensures found.Some? ==> exists k :: (0 <= k < |elements| && elements[k] == found.value
      && found.value.datasetIndex == 0 && forall m :: 0 <= m < k ==> elements[m].datasetIndex != 0)
  {
    if |elements| == 0 then None
    else if elements[0].datasetIndex == 0 then Some(elements[0])
    else
      var rest := FindMainElement(elements[1..]);
      assert forall k :: 1 <= k < |elements| ==> elements[1..][k - 1] == elements[k];
      rest
  }

  /** A click on either chart: the first element of the main dataset toggles
      its index, selecting it or, if it was already selected, clearing the
      selection; clicks that hit no main-dataset element change nothing. */
  function Click(c: Chart, elements: seq<ChartElement>): (d: Chart)
    ensures d.range == c.range && d.values == c.values
    ensures FindMainElement(elements).None? ==> d == c
    ensures FindMainElement(elements).Some? ==>
      var i := FindMainElement(elements).value.index;
      d.selected == (if c.selected == Some(i) then None else Some(i))
  {
    match FindMainElement(elements)
    case None => c
    case Some(el) => c.(selected := if c.selected == Some(el.index) then None else Some(el.index))
  }

  /** A range button: the selection is always cleared, and the data is drawn
      again only when the range actually changes (it is memoised on the
      range). A day range takes its 24 values from `draws`. */
  function SwitchRange(c: Chart, r: Range, weekValues: seq<real>, draws: seq<real>): (d: Chart)
    ensures d.range == r && d.selected == None
    ensures r == c.range ==> d.values == c.values
    ensures r != c.range && r == Week ==> d.values == weekValues
    ensures r != c.range && r == Day ==> d.values == draws
  {
    Chart(r, None, if r == c.range then c.values else if r == Week then weekValues else draws)
  }

  datatype Event =
    | UsageClick(elements: seq<ChartElement>)
    | EfficiencyClick(elements: seq<ChartElement>)
    | UsageRange(range: Range, draws: seq<real>)
    | EfficiencyRange(range: Range, draws: seq<real>)

  function Step(s: State, e: Event): (t: State)
    ensures e.UsageClick? || e.UsageRange? ==> t.efficiency == s.efficiency
    ensures e.EfficiencyClick? || e.EfficiencyRange? ==> t.usage == s.usage
  {
    match e
    case UsageClick(elements) => s.(usage := Click(s.usage, elements))
    case EfficiencyClick(elements) => s.(efficiency := Click(s.efficiency, elements))
    case UsageRange(r, draws) => s.(usage := SwitchRange(s.usage, r, WeekUsage, draws))
    case EfficiencyRange(r, draws) => s.(efficiency := SwitchRange(s.efficiency, r, WeekEfficiency, draws))
  }

  /** The data matches the range's labels and the selection, if any, names one
      of its points. */
  predicate ChartConsistent(c: Chart) {
    && |c.values| == PointCount(c.range)
    && (c.selected.Some? ==> c.selected.value < |c.values|)
  }

  /** Clicks report only elements of the drawn data; day draws have 24 values. */
  predicate EventFits(s: State, e: Event) {
    match e
    case UsageClick(elements) => forall k :: 0 <= k < |elements| ==> elements[k].index < |s.usage.values|
    case EfficiencyClick(elements) => forall k :: 0 <= k < |elements| ==> elements[k].index < |s.efficiency.values|
    case UsageRange(_, draws) => |draws| == 24
    case EfficiencyRange(_, draws) => |draws| == 24
  }

  lemma StepConsistent(s: State, e: Event)
    requires ChartConsistent(s.usage) && ChartConsistent(s.efficiency)
    requires EventFits(s, e)
    ensures ChartConsistent(Step(s, e).usage) && ChartConsistent(Step(s, e).efficiency)
  {
    match e
    case UsageClick(elements) =>
      var found := FindMainElement(elements);
      if found.Some? {
        var k :| 0 <= k < |elements| && elements[k] == found.value;
      }
    case EfficiencyClick(elements) =>
      var found := FindMainElement(elements);
      if found.Some? {
        var k :| 0 <= k < |elements| && elements[k] == found.value;
      }
    case UsageRange(_, _) =>
    case EfficiencyRange(_, _) =>
  }

  /** From nothing selected, clicking the same point twice selects it and then
      clears it again. */
  lemma ClickTwiceFromNothing(c: Chart, elements: seq<ChartElement>)
    requires c.selected == None
    ensures Click(Click(c, elements), elements) == c
  {
  }

  // ---------------------------------------------------------------------
  // Thresholds and colours
  // ---------------------------------------------------------------------

  /** The usage comparison line: the daily average on the week range, its
      hourly share on the day range. */
  function UsageThreshold(r: Range): (t: real)
    ensures t > 0.0
    ensures r == Day ==> t * 24.0 == LastMonthAvgUsage
    ensures r == Week ==> t == LastMonthAvgUsage
  {
    if r == Week then LastMonthAvgUsage else LastMonthAvgUsage / 24.0
  }

  /** The efficiency comparison line does not depend on the range. */
  function EfficiencyThreshold(r: Range): (t: real)
    ensures t == LastMonthAvgEfficiency
  {
    LastMonthAvgEfficiency
  }

  /** The dashed comparison line: the threshold repeated once per data point. */
  function ThresholdLine(values: seq<real>, t: real): (line: seq<real>)
    ensures |line| == |values|
    ensures forall k :: 0 <= k < |line| ==> line[k] == t
  {
    seq(|values|, _ => t)
  }

  /** A usage bar is red when strictly above the threshold, green otherwise. */
  predicate UsageBarRed(value: real, r: Range) {
    value > UsageThreshold(r)
  }

  /** An efficiency point is green when at or above the threshold, red
      otherwise. */
  predicate EfficiencyPointGreen(value: real, r: Range) {
    value >= EfficiencyThreshold(r)
  }

  /** Full opacity for every element when nothing is selected, otherwise only
      for the selected index; unselected bars fade to 0.5, points to 0.3. */
  function BarOpacity(c: Chart, index: nat): (o: real)
    ensures o == 1.0 <==> c.selected == None || c.selected == Some(index)
    ensures o != 1.0 ==> o == 0.5
  {
    if c.selected == None || c.selected == Some(index) then 1.0 else 0.5
  }

  function PointOpacity(c: Chart, index: nat): (o: real)
    ensures o == 1.0 <==> c.selected == None || c.selected == Some(index)
    ensures o != 1.0 ==> o == 0.3
  {
    if c.selected == None || c.selected == Some(index) then 1.0 else 0.3
  }

  /** The efficiency point radius: 6 for the selected index, 3 otherwise. */
  function PointRadius(c: Chart, index: nat): (radius: nat)
    ensures radius == 6 <==> c.selected == Some(index)
    ensures radius == 3 <==> c.selected != Some(index)
  {
    if c.selected == Some(index) then 6 else 3
  }

  /** Only one point can be enlarged at a time. */
  lemma AtMostOneEnlarged(c: Chart, i: nat, j: nat)
    requires i != j
    ensures PointRadius(c, i) == 3 || PointRadius(c, j) == 3
  {
  }

  /** A value exactly on the line is green on the bar chart (not above) and
      green on the efficiency chart (at or above): the two rules differ only at
      the threshold. */
  lemma ThresholdTies(r: Range)
    ensures !UsageBarRed(UsageThreshold(r), r)
    ensures EfficiencyPointGreen(EfficiencyThreshold(r), r)
  {
  }

  /** On the week range, Tuesday and Thursday are the bars above average and
      the efficiency points below average. */
  lemma WeekColours()
    ensures forall k :: 0 <= k < 7 ==> (UsageBarRed(WeekUsage[k], Week) <==> k == 1 || k == 3)
    ensures forall k :: 0 <= k < 7 ==> (EfficiencyPointGreen(WeekEfficiency[k], Week) <==> k != 1 && k != 3)
  {
  }

  // ---------------------------------------------------------------------
  // Summary cards
  // ---------------------------------------------------------------------

  const ProjectedBill: real := 345.50
  const LastMonthBill: real := 310.20
  const ProjectedEfficiency: real := 88.5
  const LastMonthEfficiencyScore: real := 82.0

  /** `((projected - last) / last * 100).toFixed(1)`, in tenths of a percent. */
  function DiffTenths(projected: real, last: real): int
    requires last > 0.0
  {
    ToFixedTenths((projected - last) / last * 100.0)
  }

  /** A card's arrow points up (red for the bill, green for efficiency) when the
      projection is strictly above last month. */
  predicate IsIncrease(projected: real, last: real) {
    projected > last
  }

  /** The shipped figures: the bill rises by 11.4 % and efficiency improves by
      7.9 %. */
  lemma SummaryCards()
    ensures IsIncrease(ProjectedBill, LastMonthBill) && DiffTenths(ProjectedBill, LastMonthBill) == 114
    ensures IsIncrease(ProjectedEfficiency, LastMonthEfficiencyScore)
    ensures DiffTenths(ProjectedEfficiency, LastMonthEfficiencyScore) == 79
  {
  }

  /** The arrow agrees with the sign of the rounded difference whenever the
      difference shows as non-zero. */
  lemma ArrowAgreesWithDiff(projected: real, last: real)
    requires last > 0.0
    ensures DiffTenths(projected, last) > 0 ==> IsIncrease(projected, last)
    ensures DiffTenths(projected, last) < 0 ==> !IsIncrease(projected, last)
  {
    var q := (projected - last) / last;
    assert q * last == projected - last;
    if q > 0.0 {
      assert projected - last > 0.0;
    } else if q < 0.0 {
      assert projected - last < 0.0;
    }
  }
}

=== FILE: js.dfy ===
/** The few JavaScript value operations the dashboard components rely on,
    stated over unbounded integers, exact reals and strings. */
module Js {

  datatype Option<+T> = None | Some(value: T)

  // ---------------------------------------------------------------------
  // ToInt32: the conversion behind `x | 0` and `x << n`
  // ---------------------------------------------------------------------

  const TWO_32: int := 0x1_0000_0000
  const TWO_31: int := 0x8000_0000

  predicate IsInt32(x: int) {
    -TWO_31 <= x < TWO_31
  }

  /** ECMAScript ToInt32 applied to an integral Number: the unique signed
      32-bit value congruent to x modulo 2^32. */
  function ToInt32(x: int): (r: int)
    ensures IsInt32(r)
    ensures (x - r) % TWO_32 == 0
  {
    var m := x % TWO_32;
    assert x == TWO_32 * (x / TWO_32) + m;
    if m >= TWO_31 then m - TWO_32 else m
  }

  /** Two integers congruent modulo 2^32 convert to the same 32-bit value. */
  lemma ToInt32Congruent(a: int, b: int)
    requires (a - b) % TWO_32 == 0
    ensures ToInt32(a) == ToInt32(b)
  {
    assert a == b + TWO_32 * ((a - b) / TWO_32);
    assert a % TWO_32 == b % TWO_32;
  }

  /** A value already in 32-bit range is left unchanged. */
  lemma ToInt32Identity(x: int)
    requires IsInt32(x)
    ensures ToInt32(x) == x
  {
  }

  // ---------------------------------------------------------------------
  // Decimal rendering of non-negative integers (`${n}`, `str + n`)
  // ---------------------------------------------------------------------

  predicate IsDigit(c: char) {
    '0' <= c <= '9'
  }

  function DigitChar(d: int): (c: char)
    requires 0 <= d < 10
    ensures IsDigit(c)
    ensures c as int - '0' as int == d
  {
    ('0' as int + d) as char
  }

  /** The shortest decimal spelling of n, as JavaScript prints an integer. */
  function NatToString(n: nat): (s: string)
    ensures |s| >= 1
    ensures forall i :: 0 <= i < |s| ==> IsDigit(s[i])
    ensures |s| > 1 ==> s[0] != '0'
    ensures n < 10 <==> |s| == 1
  {
    if n < 10 then [DigitChar(n)] else NatToString(n / 10) + [DigitChar(n % 10)]
  }

  /** Reads a string of decimal digits back into the number it spells. */
  function ParseNat(s: string): nat
    requires forall i :: 0 <= i < |s| ==> IsDigit(s[i])
  {
    if |s| == 0 then 0
    else
      assert IsDigit(s[|s| - 1]);
      ParseNat(s[..|s| - 1]) * 10 + (s[|s| - 1] as int - '0' as int)
  }

  /** Parsing undoes printing. */
  lemma {:induction false} ParseNatToString(n: nat)
    ensures ParseNat(NatToString(n)) == n
  {
    var s := NatToString(n);
    if n >= 10 {
      var prefix := NatToString(n / 10);
      assert s[..|s| - 1] == prefix;
      ParseNatToString(n / 10);
    }
  }

  /** Distinct numbers print as distinct strings. */
  lemma NatToStringInjective(a: nat, b: nat)
    requires NatToString(a) == NatToString(b)
    ensures a == b
  {
    ParseNatToString(a);
    ParseNatToString(b);
  }

  // ---------------------------------------------------------------------
  // String.prototype.toLowerCase on ASCII, String.prototype.includes
  // ---------------------------------------------------------------------

  function LowerChar(c: char): char {
    if 'A' <= c <= 'Z' then (c as int + 32) as char else c
  }

  /** ASCII lower-casing: upper-case letters are mapped, everything else kept. */
  function Lower(s: string): (r: string)
    ensures |r| == |s|
    ensures forall i :: 0 <= i < |s| ==> r[i] == LowerChar(s[i])
    ensures forall i :: 0 <= i < |r| ==> !('A' <= r[i] <= 'Z')
  {
    if |s| == 0 then [] else [LowerChar(s[0])] + Lower(s[1..])
  }

  /** Lower-casing twice is lower-casing once. */
  lemma LowerIdempotent(s: string)
    ensures Lower(Lower(s)) == Lower(s)
  {
    var once := Lower(s);
    var twice := Lower(once);
    assert forall i :: 0 <= i < |s| ==> twice[i] == once[i];
  }

  /** sub occurs in s starting at position i. */
  predicate OccursAt(s: string, sub: string, i: int) {
    0 <= i && i + |sub| <= |s| && s[i..i + |sub|] == sub
  }

  /** String.prototype.includes: sub is a prefix of s or of one of its suffixes. */
  predicate Contains(s: string, sub: string)
    decreases |s|
  {
    (|sub| <= |s| && s[..|sub|] == sub) || (|s| > 0 && Contains(s[1..], sub))
  }

  /** includes holds exactly when the needle occurs at some position. */
  lemma {:induction false} ContainsIff(s: string, sub: string)
    ensures Contains(s, sub) <==> exists i :: OccursAt(s, sub, i)
    decreases |s|
  {
    if |sub| <= |s| && s[..|sub|] == sub {
      assert OccursAt(s, sub, 0);
    } else if |s| > 0 {
      ContainsIff(s[1..], sub);
      if Contains(s[1..], sub) {
        var i :| OccursAt(s[1..], sub, i);
        assert s[1..][i..i + |sub|] == s[i + 1..i + 1 + |sub|];
        assert OccursAt(s, sub, i + 1);
      } else {
        if i :| OccursAt(s, sub, i) {
          assert i != 0;
          assert s[1..][i - 1..i - 1 + |sub|] == s[i..i + |sub|];
          assert OccursAt(s[1..], sub, i - 1);
          assert false;
        }
      }
    } else {
      assert forall i :: OccursAt(s, sub, i) ==> i == 0;
      assert !OccursAt(s, sub, 0);
    }
  }

  /** A witness position is enough to establish includes. */
  lemma ContainsAt(s: string, sub: string, i: int)
    requires OccursAt(s, sub, i)
    ensures Contains(s, sub)
  {
    ContainsIff(s, sub);
  }

  // ---------------------------------------------------------------------
  // String.prototype.trim
  // ---------------------------------------------------------------------

  /** ECMAScript WhiteSpace and LineTerminator code points, the set trim removes. */
  predicate IsJsSpace(c: char) {
    || c == '\t' || c == '\n' || c == '\U{000B}' || c == '\U{000C}' || c == '\r'
    || c == ' ' || c == '\U{00A0}' || c == '\U{1680}'
    || ('\U{2000}' <= c <= '\U{200A}')
    || c == '\U{2028}' || c == '\U{2029}' || c == '\U{202F}' || c == '\U{205F}'
    || c == '\U{3000}' || c == '\U{FEFF}'
  }

  /** Drops leading white space: the result is the suffix starting at the first
      non-space character. */
  function TrimStart(s: string): (r: string)
    ensures |r| <= |s| && r == s[|s| - |r|..]
    ensures forall i :: 0 <= i < |s| - |r| ==> IsJsSpace(s[i])
    ensures |r| > 0 ==> !IsJsSpace(r[0])
  {
    if |s| > 0 && IsJsSpace(s[0]) then TrimStart(s[1..]) else s
  }

  /** Drops trailing white space: the result is the prefix ending at the last
      non-space character. */
  function TrimEnd(s: string): (r: string)
    ensures |r| <= |s| && r == s[..|r|]
    ensures forall i :: |r| <= i < |s| ==> IsJsSpace(s[i])
    ensures |r| > 0 ==> !IsJsSpace(r[|r| - 1])
  {
    if |s| > 0 && IsJsSpace(s[|s| - 1]) then TrimEnd(s[..|s| - 1]) else s
  }

  /** `trim()`: the result has no white space at either end and is a piece of
      the original text. */
  function Trim(s: string): (r: string)
    ensures |r| <= |s|
    ensures |r| > 0 ==> !IsJsSpace(r[0]) && !IsJsSpace(r[|r| - 1])
    ensures (forall i :: 0 <= i < |s| ==> !IsJsSpace(s[i])) ==> r == s
  {
    TrimEnd(TrimStart(s))
  }

  /** A string trims to nothing exactly when every character is white space. */
  lemma TrimEmptyIff(s: string)
    ensures Trim(s) == [] <==> forall i :: 0 <= i < |s| ==> IsJsSpace(s[i])
  {
    var t := TrimStart(s);
    if Trim(s) == [] {
      assert |t| == 0;
    } else {
      var r := Trim(s);
      assert t[0] == r[0];
      assert s[|s| - |t|] == t[0];
    }
  }

  // ---------------------------------------------------------------------
  // Number.prototype.toFixed(1)
  // ---------------------------------------------------------------------

  /** toFixed(1) as a count of tenths: the nearest multiple of 0.1, ties
      rounded away from zero (the digits are computed on |x| and the sign
      re-attached). */
  function ToFixedTenths(x: real): (t: int)
    ensures x >= 0.0 ==> t as real - 0.5 <= x * 10.0 < t as real + 0.5
    ensures x < 0.0 ==> t as real - 0.5 < x * 10.0 <= t as real + 0.5
  {
    if x >= 0.0 then (x * 10.0 + 0.5).Floor else -((-x) * 10.0 + 0.5).Floor
  }
}

=== FILE: monitoring.dfy ===
/** The live monitoring dashboard: a 30-point window of live consumption, the
    incoming voltage, a running total and three submeters, refreshed by a
    periodic tick that also decides the one alert shown at the top. */
module Monitoring {

  const VoltageMin: real := 230.0
  const VoltageMax: real := 250.0
  /** Live consumption limit, kW. */
  const LiveLimit: real := 12.0
  /** Per-submeter limit, kW. */
  const SubmeterLimit: real := 5.0
  /** Daily total limit, kWh. */
  const TotalLimit: real := 20.0
  const WindowSize: nat := 30
  const SubmeterNames: seq<string> := ["Kitchen", "Laundry Room", "Water Heater & AC"]

  /** The alert banner: none ("System Normal"), or the reason with the value
      that triggered it. */
  datatype Alert =
    | NoAlert
    | LiveAlert(kw: real)
    | VoltageAlert(volts: real)
    | SubmeterAlert(name: string, kw: real)

  datatype State = State(
    dataPoints: seq<real>,
    voltage: real,
    totalConsumption: real,
    submeters: seq<real>,
    activeAlert: Alert)

  /** The values one tick draws at random: live kW, voltage, the three
      submeters and the increment added to the total. */
  datatype Sample = Sample(live: real, voltage: real, submeters: seq<real>, increment: real)

  /** The ranges the tick draws from: live in [9, 14), voltage in [225, 255),
      submeters in [2, 6), increment in [0, 0.01). */
  predicate SampleInRange(x: Sample) {
    && 9.0 <= x.live < 14.0
    && 225.0 <= x.voltage < 255.0
    && |x.submeters| == 3
    && (forall k :: 0 <= k < 3 ==> 2.0 <= x.submeters[k] < 6.0)
    && 0.0 <= x.increment < 0.01
  }

  // ---------------------------------------------------------------------
  // Status predicates (card colours)
  // ---------------------------------------------------------------------

  predicate IsVoltageNormal(voltage: real) {
    VoltageMin <= voltage <= VoltageMax
  }

  predicate IsTotalNormal(total: real) {
    total < TotalLimit
  }

  /** The newest point of the window is strictly below the live limit. */
  predicate IsLiveNormal(points: seq<real>)
    requires |points| > 0
  {
    points[|points| - 1] < LiveLimit
  }

  predicate IsSubmeterNormal(kw: real) {
    kw <= SubmeterLimit
  }

  // ---------------------------------------------------------------------
  // The tick
  // ---------------------------------------------------------------------

  /** `findIndex(val => val > limit)`: the first submeter over the limit, or
      the length when there is none. */
  function FirstHighSubmeter(subs: seq<real>): (idx: nat)
    ensures idx <= |subs|
    ensures forall k :: 0 <= k < idx ==> IsSubmeterNormal(subs[k])
    ensures idx < |subs| ==> !IsSubmeterNormal(subs[idx])
  {
    if |subs| == 0 then 0
    else if !IsSubmeterNormal(subs[0]) then 0
    else 1 + FirstHighSubmeter(subs[1..])
  }

  /** The alert a tick raises, by priority: live consumption over the limit;
      otherwise voltage outside [230, 250]; otherwise the first submeter over
      its limit, by name; otherwise none. */
  function AlertFor(live: real, voltage: real, subs: seq<real>): (a: Alert)
    requires |subs| == |SubmeterNames|
    ensures a.LiveAlert? <==> live > LiveLimit
    ensures a.VoltageAlert? <==> live <= LiveLimit && !IsVoltageNormal(voltage)
    ensures a.SubmeterAlert? <==>
      live <= LiveLimit && IsVoltageNormal(voltage) && exists k :: 0 <= k < |subs| && !IsSubmeterNormal(subs[k])
    ensures a.SubmeterAlert? ==> exists idx :: (0 <= idx < |subs|
      && a == SubmeterAlert(SubmeterNames[idx], subs[idx]) && !IsSubmeterNormal(subs[idx])
      && forall k :: 0 <= k < idx ==> IsSubmeterNormal(subs[k]))
    ensures a.LiveAlert? ==> a.kw == live
    ensures a.VoltageAlert? ==> a.volts == voltage
  {
    if live > LiveLimit then LiveAlert(live)
    else if voltage < VoltageMin || voltage > VoltageMax then VoltageAlert(voltage)
    else
      var idx := FirstHighSubmeter(subs);
      if idx < |subs| then SubmeterAlert(SubmeterNames[idx], subs[idx]) else NoAlert
  }

  /** No alert exactly when every reading is within its limit. */
  lemma NoAlertIff(live: real, voltage: real, subs: seq<real>)
    requires |subs| == |SubmeterNames|
    ensures AlertFor(live, voltage, subs) == NoAlert <==>
      live <= LiveLimit && IsVoltageNormal(voltage) && forall k :: 0 <= k < |subs| ==> IsSubmeterNormal(subs[k])
  {
    var a := AlertFor(live, voltage, subs);
    assert a == NoAlert <==> !a.LiveAlert? && !a.VoltageAlert? && !a.SubmeterAlert?;
  }

  /** The chart window moves by one: the oldest point is dropped and the new
      value appended last. */
  function Slide(points: seq<real>, value: real): (next: seq<real>)
    ensures |points| > 0 ==> |next| == |points|
    ensures |next| > 0 && next[|next| - 1] == value
    ensures forall k :: 0 <= k < |next| - 1 ==> k + 1 < |points| && next[k] == points[k + 1]
  {
    (if |points| == 0 then [] else points[1..]) + [value]
  }

  /** One interval tick with the given random draws. */
  function Tick(s: State, x: Sample): (t: State)
    requires |x.submeters| == |SubmeterNames|
    ensures t.dataPoints == Slide(s.dataPoints, x.live)
    ensures t.voltage == x.voltage && t.submeters == x.submeters
    ensures t.totalConsumption == s.totalConsumption + x.increment
    ensures t.activeAlert == AlertFor(x.live, x.voltage, x.submeters)
  {
    State(
      Slide(s.dataPoints, x.live),
      x.voltage,
      s.totalConsumption + x.increment,
      x.submeters,
      AlertFor(x.live, x.voltage, x.submeters))
  }

  /** The dashboard at mount: the randomly drawn initial window, 240 V, 12.5 kWh,
      the submeters 4.2 / 3.1 / 5.2 and no alert. */
  function Init(initialPoints: seq<real>): (s: State)
    requires |initialPoints| == WindowSize
    ensures |s.dataPoints| == WindowSize && s.activeAlert == NoAlert
    ensures IsVoltageNormal(s.voltage) && IsTotalNormal(s.totalConsumption)
  {
    State(initialPoints, 240.0, 12.5, [4.2, 3.1, 5.2], NoAlert)
  }

  /** Before the first tick the banner says "System Normal" although the third
      submeter card is already red: alerts are only decided by ticks. */
  lemma InitialBannerIgnoresSubmeters(initialPoints: seq<real>)
    requires |initialPoints| == WindowSize
    ensures Init(initialPoints).activeAlert == NoAlert
    ensures !IsSubmeterNormal(Init(initialPoints).submeters[2])
    ensures AlertFor(11.0, 240.0, Init(initialPoints).submeters) == SubmeterAlert("Water Heater & AC", 5.2)
  {
  }

  /** At exactly 12 kW there is no live alert, yet the live status is already
      red: the alert uses `>` and the status `<`. */
  lemma LiveBoundaryGap(s: State, x: Sample)
    requires |x.submeters| == |SubmeterNames|
    requires x.live == LiveLimit
    ensures !Tick(s, x).activeAlert.LiveAlert?
    ensures !IsLiveNormal(Tick(s, x).dataPoints)
  {
  }

  /** After a tick, the banner's reason is always shown as red on its card. */
  lemma AlertAgreesWithStatus(s: State, x: Sample)
    requires |x.submeters| == |SubmeterNames|
    ensures var t := Tick(s, x);
      && (t.activeAlert.LiveAlert? ==> !IsLiveNormal(t.dataPoints))
      && (t.activeAlert.VoltageAlert? ==> !IsVoltageNormal(t.voltage))
      && (t.activeAlert.SubmeterAlert? ==> exists k :: 0 <= k < |t.submeters| && !IsSubmeterNormal(t.submeters[k]))
  {
  }

  /** Runs the dashboard through a sequence of ticks. */
  function RunTicks(s: State, xs: seq<Sample>): (t: State)
    requires forall k :: 0 <= k < |xs| ==> |xs[k].submeters| == |SubmeterNames|
    ensures |s.dataPoints| > 0 ==> |t.dataPoints| == |s.dataPoints|
    ensures |xs| > 0 ==> t.activeAlert == AlertFor(xs[|xs| - 1].live, xs[|xs| - 1].voltage, xs[|xs| - 1].submeters)
    decreases |xs|
  {
    if |xs| == 0 then s else RunTicks(Tick(s, xs[0]), xs[1..])
  }

  /** Over any run of in-range ticks the window keeps its length and the total
      never decreases, growing by less than 0.01 kWh per tick. */
  lemma {:induction false} RunTicksInvariant(s: State, xs: seq<Sample>)
    requires |s.dataPoints| == WindowSize
    requires forall k :: 0 <= k < |xs| ==> SampleInRange(xs[k])
    ensures forall k :: 0 <= k < |xs| ==> |xs[k].submeters| == |SubmeterNames|
    ensures |RunTicks(s, xs).dataPoints| == WindowSize
    ensures s.totalConsumption <= RunTicks(s, xs).totalConsumption
    ensures RunTicks(s, xs).totalConsumption <= s.totalConsumption + 0.01 * |xs| as real
    ensures |xs| > 0 ==> RunTicks(s, xs).totalConsumption < s.totalConsumption + 0.01 * |xs| as real
    decreases |xs|
  {
    if |xs| > 0 {
      var t := Tick(s, xs[0]);
      assert forall k :: 0 <= k < |xs| - 1 ==> xs[1..][k] == xs[k + 1];
      RunTicksInvariant(t, xs[1..]);
    }
  }
}

=== FILE: overview.dfy ===
/** The overview page: weather-driven smart tips, the KPI cards' good/bad
    polarity, the seven-day stacked performance chart and the category split. */
module Overview {
  import opened Environment
  import opened UsageData

  // ---------------------------------------------------------------------
  // Smart tips
  // ---------------------------------------------------------------------

  datatype Weather = Weather(temp: real, humidity: real, isRaining: bool)

  /** The page's fixed weather: 32 degrees, 45 % humidity, sunny. */
  const ShippedWeather: Weather := Weather(32.0, 45.0, false)

  datatype TipCategory = AcTip | LaundryTip | AppliancesTip

  /** Bootstrap colour names used by tips and badges. */
  datatype Colour = Primary | Info | Success | Warning | Secondary | Danger

  datatype Tip = Tip(category: TipCategory, colour: Colour)

  /** The AC tip: recommended above 30 degrees, optional from 25 to 30, not
      needed below 25. */
  function AcTipColour(temp: real): (c: Colour)
    ensures c == Primary <==> temp > 30.0
    ensures c == Info <==> 25.0 <= temp <= 30.0
    ensures c == Success <==> temp < 25.0
  {
    if temp > 30.0 then Primary else if temp >= 25.0 then Info else Success
  }

  /** The laundry tip warns against the dryer in rain or above 70 % humidity. */
  function LaundryTipColour(w: Weather): (c: Colour)
    ensures c == Warning <==> w.isRaining || w.humidity > 70.0
    ensures c == Success <==> !w.isRaining && w.humidity <= 70.0
  {
    if w.isRaining || w.humidity > 70.0 then Warning else Success
  }

  /** Always three tips, in the order AC, laundry, heavy appliances. */
  function GenerateSmartTips(w: Weather): (tips: seq<Tip>)
    ensures |tips| == 3
    ensures tips[0].category == AcTip && tips[1].category == LaundryTip && tips[2].category == AppliancesTip
    ensures tips[0].colour == AcTipColour(w.temp)
    ensures tips[1].colour == LaundryTipColour(w)
    ensures tips[2].colour == Secondary
  {
    [Tip(AcTip, AcTipColour(w.temp)), Tip(LaundryTip, LaundryTipColour(w)), Tip(AppliancesTip, Secondary)]
  }

  /** How strongly the AC tip recommends cooling. */
  function AcUrgency(c: Colour): nat {
    match c
    case Primary => 2
    case Info => 1
    case _ => 0
  }

  /** A hotter day never gets a weaker AC recommendation, and a more humid day
      never turns the laundry warning off. */
  lemma TipsMonotone(a: Weather, b: Weather)
    requires a.temp <= b.temp
    requires a.humidity <= b.humidity && (a.isRaining ==> b.isRaining)
    ensures AcUrgency(GenerateSmartTips(a)[0].colour) <= AcUrgency(GenerateSmartTips(b)[0].colour)
    ensures GenerateSmartTips(a)[1].colour == Warning ==> GenerateSmartTips(b)[1].colour == Warning
  {
  }

  /** With the page's weather the tips are primary, success, secondary. */
  lemma ShippedTips()
    ensures GenerateSmartTips(ShippedWeather) == [Tip(AcTip, Primary), Tip(LaundryTip, Success), Tip(AppliancesTip, Secondary)]
  {
  }

  // ---------------------------------------------------------------------
  // KPI cards
  // ---------------------------------------------------------------------

  datatype TrendIcon = ArrowUp | ArrowDown | Minus

  /** A trend is good when it moves in the card's preferred direction: down
      for "lower is better" cards, up otherwise. */
  predicate IsGood(trend: string, lowerIsBetter: bool) {
    if lowerIsBetter then trend == "down" else trend == "up"
  }

  /** The badge is green exactly when the trend is good, red otherwise. */
  function BadgeColour(trend: string, lowerIsBetter: bool): (c: Colour)
    ensures c == Success <==> IsGood(trend, lowerIsBetter)
    ensures c != Success ==> c == Danger
  {
    if IsGood(trend, lowerIsBetter) then Success else Danger
  }

  /** The arrow follows the trend string; anything but "up" or "down" shows a
      dash. */
  function KpiTrendIcon(trend: string): (icon: TrendIcon)
    ensures icon == ArrowUp <==> trend == "up"
    ensures icon == ArrowDown <==> trend == "down"
  {
    if trend == "down" then ArrowDown else if trend == "up" then ArrowUp else Minus
  }

  /** Flipping the polarity swaps which of "up" and "down" is good; an unknown
      trend is good under neither polarity, and no trend is good under both. */
  lemma PolarityFlips(trend: string)
    ensures trend == "up" ==> IsGood(trend, false) && !IsGood(trend, true)
    ensures trend == "down" ==> IsGood(trend, true) && !IsGood(trend, false)
    ensures !(IsGood(trend, true) && IsGood(trend, false))
    ensures KpiTrendIcon(trend) == Minus ==> !IsGood(trend, true) && !IsGood(trend, false)
  {
  }

  /** The three cards on the page: falling live usage (lower is better), rising
      efficiency and rising savings; all three badges are green. */
  lemma ShippedCardsAreGood()
    ensures BadgeColour("down", true) == Success
    ensures BadgeColour("up", false) == Success
    ensures KpiTrendIcon("down") == ArrowDown && KpiTrendIcon("up") == ArrowUp
  {
  }

  // ---------------------------------------------------------------------
  // Weekly performance and split
  // ---------------------------------------------------------------------

  /** The seven short date labels ending today, oldest first. */
  function Last7Days(env: Env): (labels: seq<string>)
    ensures |labels| == 7
    ensures labels[6] == env.dayLabel(env.today)
    ensures forall k :: 0 <= k < 7 ==> labels[k] == env.dayLabel(env.today - 6 + k)
  {
    var days := DaysEndingAt(env.today, 7);
    assert forall k :: 0 <= k < 7 ==> days[k] == env.today - 6 + k;
    LabelsOf(env, days)
  }

  /** They are the usage page's current week window. */
  lemma Last7DaysIsCurrentWeek(env: Env)
    ensures Last7Days(env) == WeekLabels(env, 0)
  {
    var a, b := Last7Days(env), WeekLabels(env, 0);
    assert forall k :: 0 <= k < 7 ==> a[k] == b[k];
  }

  const LastWeekAvg: seq<int> := [42, 42, 42, 42, 42, 42, 42]
  const PerformanceAc: seq<int> := [20, 18, 25, 15, 20, 12, 10]
  const PerformanceKitchen: seq<int> := [15, 12, 20, 10, 15, 10, 8]
  const PerformanceLaundry: seq<int> := [10, 10, 10, 10, 5, 8, 8]
  const PerformanceOther: seq<int> := [5, 5, 5, 5, 5, 5, 4]

  /** Every series has one value per label; stacked, the four categories reach
      50, 45, 60, 40, 45, 35 and 30 kWh, so the stacks of the first three days
      and the fifth rise above last week's average and the others stay below
      it. */
  lemma PerformanceShape(env: Env)
    ensures |LastWeekAvg| == |PerformanceAc| == |PerformanceKitchen| == |Last7Days(env)|
    ensures |PerformanceLaundry| == |PerformanceOther| == |Last7Days(env)|
    ensures forall k :: 0 <= k < 7 ==>
      PerformanceAc[k] + PerformanceKitchen[k] + PerformanceLaundry[k] + PerformanceOther[k]
        == [50, 45, 60, 40, 45, 35, 30][k]
    ensures forall k :: 0 <= k < 7 ==>
      ((PerformanceAc[k] + PerformanceKitchen[k] + PerformanceLaundry[k] + PerformanceOther[k] > LastWeekAvg[k])
         <==> (k < 3 || k == 4))
  {
  }

  /** The doughnut's split, AC, kitchen, laundry, other. */
  const SplitPercent: seq<int> := [45, 30, 15, 10]

  /** The split is a percentage split and matches the usage page's initial
      breakdown category by category. */
  lemma SplitMatchesInitialBreakdown()
    ensures SplitPercent[0] + SplitPercent[1] + SplitPercent[2] + SplitPercent[3] == 100
    ensures forall k :: 0 <= k < 4 ==> SplitPercent[k] as real == InitialBreakdown.Get(Categories[k])
  {
  }
}

=== FILE: seeded_random.dfy ===
/** The seeded generator behind the synthetic usage data: a 32-bit string hash
    (UsageBreakdown's `pseudoRandom`) followed by the host's fractional step. */
module SeededRandom {
  import opened Js
  import opened Environment

  /** The polynomial the hash approximates: sum of code(s[k]) * 31^(n-1-k),
      computed without any wrap-around. */
  function Poly(s: string): int {
    if |s| == 0 then 0 else 31 * Poly(s[..|s| - 1]) + s[|s| - 1] as int
  }

  /** One iteration of the page's loop, operator for operator:
      `hash = ((hash << 5) - hash) + code; hash |= 0`. The shift converts its
      operand to 32 bits and wraps its result; the final `| 0` wraps again. */
  function HashStep(hash: int, code: int): int {
    ToInt32(ToInt32(hash * 32) - hash + code)
  }

  /** The hash after consuming every character of s, left to right from 0. */
  function Hash(s: string): (h: int)
    ensures IsInt32(h)
  {
    if |s| == 0 then 0 else HashStep(Hash(s[..|s| - 1]), s[|s| - 1] as int)
  }

  /** The shift-and-subtract step is a 32-bit multiply-by-31-and-add. */
  lemma HashStepIsMul31(hash: int, code: int)
    ensures HashStep(hash, code) == ToInt32(31 * hash + code)
  {
    var shifted := ToInt32(hash * 32);
    assert (hash * 32 - shifted) % TWO_32 == 0;
    assert (shifted - hash + code) - (31 * hash + code) == -(hash * 32 - shifted);
    ToInt32Congruent(shifted - hash + code, 31 * hash + code);
  }

  /** Multiplying by 31 and adding the same code keeps two values congruent
      modulo 2^32. */
  lemma Mul31AddCongruent(a: int, b: int, code: int)
    requires (a - b) % TWO_32 == 0
    ensures ((31 * a + code) - (31 * b + code)) % TWO_32 == 0
  {
    var k := (a - b) / TWO_32;
    assert a - b == TWO_32 * k;
    assert (31 * a + code) - (31 * b + code) == TWO_32 * (31 * k);
  }

  /** The hash is the wrapped polynomial: wrapping at every step gives the same
      result as wrapping once at the end. */
  lemma {:induction false} HashIsWrappedPoly(s: string)
    ensures Hash(s) == ToInt32(Poly(s))
  {
    if |s| > 0 {
      var prefix := s[..|s| - 1];
      var code := s[|s| - 1] as int;
      var h, p := Hash(prefix), Poly(prefix);
      assert Hash(s) == HashStep(h, code);
      assert Poly(s) == 31 * p + code;
      HashIsWrappedPoly(prefix);
      HashStepIsMul31(h, code);
      Mul31AddCongruent(p, h, code);
      ToInt32Congruent(31 * p + code, 31 * h + code);
    }
  }

  /** The page's loop: the hash it returns is the polynomial of the seed
      reduced to a signed 32-bit value. */
  method ComputeHash(seed: string) returns (hash: int)
    ensures IsInt32(hash)
    ensures hash == ToInt32(Poly(seed))
  {
    hash := 0;
    var i := 0;
    while i < |seed|
      invariant 0 <= i <= |seed|
      invariant hash == Hash(seed[..i])
    {
      assert seed[..i + 1][..i] == seed[..i];
      hash := ToInt32(ToInt32(hash * 32) - hash + seed[i] as int);
      i := i + 1;
    }
    assert seed[..i] == seed;
    HashIsWrappedPoly(seed);
  }

  /** `pseudoRandom(seed)`: a value in [0, 1) that depends on the seed only
      through its hash. */
  function PseudoRandom(env: Env, seed: string): (r: real)
    requires FractionInRange(env)
    ensures 0.0 <= r < 1.0
    ensures r == env.sinFraction(ToInt32(Poly(seed)))
  {
    HashIsWrappedPoly(seed);
    env.sinFraction(Hash(seed))
  }

  /** Seeds whose polynomials agree modulo 2^32 draw the same value. */
  lemma SeedsWithCongruentPolyCollide(env: Env, a: string, b: string)
    requires FractionInRange(env)
    requires (Poly(a) - Poly(b)) % TWO_32 == 0
    ensures PseudoRandom(env, a) == PseudoRandom(env, b)
  {
    ToInt32Congruent(Poly(a), Poly(b));
  }
}

=== FILE: usage_data.dfy ===
/** The synthetic data store and the fixed baseline of the usage-breakdown view:
    per-day values for the seven days of a week window, per-hour values for a
    calendar date, and last month's average. */
module UsageData {
  import opened Js
  import opened Environment
  import opened SeededRandom

  datatype Category = AC | Kitchen | Laundry | Other

  /** The categories in the order the panel lists them. */
  const Categories: seq<Category> := [AC, Kitchen, Laundry, Other]

  /** Usage in kWh per category. */
  datatype Breakdown = Breakdown(ac: real, kitchen: real, laundry: real, other: real) {

    function Get(c: Category): real {
      match c
      case AC => ac
      case Kitchen => kitchen
      case Laundry => laundry
      case Other => other
    }

    function Total(): real {
      ac + kitchen + laundry + other
    }

    predicate Positive() {
      ac > 0.0 && kitchen > 0.0 && laundry > 0.0 && other > 0.0
    }
  }

  /** The breakdown shown before any click. */
  const InitialBreakdown: Breakdown := Breakdown(45.0, 30.0, 15.0, 10.0)

  // ---------------------------------------------------------------------
  // Baseline
  // ---------------------------------------------------------------------

  /** An average daily breakdown together with its stated daily total. */
  datatype Average = Average(total: real, split: Breakdown)

  const LastMonthAverage: Average := Average(55.0, Breakdown(25.0, 18.0, 8.0, 4.0))

  /** The stated total of last month's average is the sum of its categories,
      and every category is positive. */
  lemma LastMonthAverageConsistent()
    ensures LastMonthAverage.total == LastMonthAverage.split.Total()
    ensures LastMonthAverage.split.Positive()
  {
  }

  /** The comparison used for a single hour: each daily category over 24. */
  function HourlyAverage(): (b: Breakdown)
    ensures forall c: Category :: b.Get(c) * 24.0 == LastMonthAverage.split.Get(c)
    ensures b.Positive()
  {
    var d := LastMonthAverage.split;
    Breakdown(d.ac / 24.0, d.kitchen / 24.0, d.laundry / 24.0, d.other / 24.0)
  }

  // ---------------------------------------------------------------------
  // Week window
  // ---------------------------------------------------------------------

  /** The seven days of the window `offset` weeks back: oldest first, ending
      at today minus 7 * offset, one day apart. */
  function WeekDays(today: int, offset: nat): (days: seq<int>)
    ensures |days| == 7
    ensures days[6] == today - 7 * offset
    ensures forall k :: 0 <= k < 6 ==> days[k + 1] == days[k] + 1
  {
    DaysEndingAt(today - 7 * offset, 7)
  }

  /** Moving one week back moves every day of the window back by exactly 7. */
  lemma WeekDaysShift(today: int, offset: nat)
    ensures forall k :: 0 <= k < 7 ==> WeekDays(today, offset + 1)[k] == WeekDays(today, offset)[k] - 7
  {
    var now, before := WeekDays(today, offset), WeekDays(today, offset + 1);
    forall k | 0 <= k < 7
      ensures before[k] == now[k] - 7
    {
      assert now[k] == today - 7 * offset - 6 + k;
      assert before[k] == today - 7 * (offset + 1) - 6 + k;
    }
  }

  /** `getWeekDates(offset)`: the short labels of the window's days. */
  function WeekLabels(env: Env, offset: nat): (labels: seq<string>)
    ensures |labels| == 7
    ensures forall k :: 0 <= k < 7 ==> labels[k] == env.dayLabel(env.today - 7 * offset - 6 + k)
  {
    var days := WeekDays(env.today, offset);
    assert forall k :: 0 <= k < 7 ==> days[k] == env.today - 7 * offset - 6 + k;
    LabelsOf(env, days)
  }

  /** The seven labels of a window are pairwise distinct. */
  lemma WeekLabelsDistinct(env: Env, offset: nat, i: int, j: int)
    requires LabelsDistinctWithinWeek(env)
    requires 0 <= i < 7 && 0 <= j < 7 && i != j
    ensures WeekLabels(env, offset)[i] != WeekLabels(env, offset)[j]
  {
    ConsecutiveLabelsDistinct(env, env.today - 7 * offset, 7, i, j);
  }

  // ---------------------------------------------------------------------
  // Weekly values
  // ---------------------------------------------------------------------

  predicate IsWhole(x: real) {
    x == x.Floor as real
  }

  /** `Math.floor(p * width)` for a draw p in [0, 1). */
  function Bucket(p: real, width: nat): (n: int)
    requires 0.0 <= p < 1.0
    requires width > 0
    ensures 0 <= n < width
  {
    var w := width as real;
    assert p * w < w by {
      assert (1.0 - p) * w > 0.0;
    }
    (p * w).Floor
  }

  /** The weekly entry of one day label: `20 + floor(10 p)` for AC,
      `15 + floor(8 p)` for Kitchen, `10 + floor(5 p)` for Laundry and
      `5 + floor(3 p)` for Other, each p drawn from label ++ offset ++ category.
      Every value is a whole number of kWh inside its band. */
  function WeeklyEntry(env: Env, dateLabel: string, offset: nat): (b: Breakdown)
    requires FractionInRange(env)
    ensures IsWhole(b.ac) && 20.0 <= b.ac <= 29.0
    ensures IsWhole(b.kitchen) && 15.0 <= b.kitchen <= 22.0
    ensures IsWhole(b.laundry) && 10.0 <= b.laundry <= 14.0
    ensures IsWhole(b.other) && 5.0 <= b.other <= 7.0
    ensures b.Positive()
  {
    var seed := dateLabel + NatToString(offset);
    Breakdown(
      (20 + Bucket(PseudoRandom(env, seed + "AC"), 10)) as real,
      (15 + Bucket(PseudoRandom(env, seed + "Kitchen"), 8)) as real,
      (10 + Bucket(PseudoRandom(env, seed + "Laundry"), 5)) as real,
      (5 + Bucket(PseudoRandom(env, seed + "Other"), 3)) as real)
  }

  // ---------------------------------------------------------------------
  // Hourly values
  // ---------------------------------------------------------------------

  /** The label of hour h: "0:00" .. "23:00". */
  /** `${h}:00`: the unpadded hour followed by ":00". */
  function HourLabel(h: nat): (text: string)
    ensures |text| >= 4 && text[|text| - 3..] == ":00"
    ensures h < 10 <==> |text| == 4
  {
    NatToString(h) + ":00"
  }

  function HourLabels(): (labels: seq<string>)
    ensures |labels| == 24
    ensures forall h :: 0 <= h < 24 ==> labels[h] == HourLabel(h)
  {
    seq(24, h requires 0 <= h => HourLabel(h))
  }

  /** Different hours have different labels. */
  lemma HourLabelInjective(a: nat, b: nat)
    requires HourLabel(a) == HourLabel(b)
    ensures a == b
  {
    var sa, sb := NatToString(a), NatToString(b);
    assert HourLabel(a)[..|sa|] == sa;
    assert HourLabel(b)[..|sb|] == sb;
    assert |sa| == |sb|;
    assert sa == sb;
    NatToStringInjective(a, b);
  }

  /** Hourly usage per category in tenths of a kWh. */
  datatype Tenths = Tenths(ac: int, kitchen: int, laundry: int, other: int) {

    function Total(): int {
      ac + kitchen + laundry + other
    }

    function Plus(t: Tenths): Tenths {
      Tenths(ac + t.ac, kitchen + t.kitchen, laundry + t.laundry, other + t.other)
    }

    /** `parseFloat` of the one-decimal strings: the same amounts in kWh. */
    function ToKwh(): (b: Breakdown)
      ensures b.Total() * 10.0 == Total() as real
    {
      Breakdown(ac as real / 10.0, kitchen as real / 10.0, laundry as real / 10.0, other as real / 10.0)
    }
  }

  /** The bands every hourly entry falls in: AC 2.0-7.0, Kitchen 1.0-4.0,
      Laundry 0.5-2.5 and Other 0.5-1.5 kWh. */
  predicate InHourlyBands(t: Tenths) {
    && 20 <= t.ac <= 70
    && 10 <= t.kitchen <= 40
    && 5 <= t.laundry <= 25
    && 5 <= t.other <= 15
  }

  /** `(p * scale + base).toFixed(1)` for a draw p in [0, 1), for the four
      (scale, base) pairs of the hourly generator: each lands in its band. */
  lemma RoundedDrawBands(p: real)
    requires 0.0 <= p < 1.0
    ensures 20 <= ToFixedTenths(p * 5.0 + 2.0) <= 70
    ensures 10 <= ToFixedTenths(p * 3.0 + 1.0) <= 40
    ensures 5 <= ToFixedTenths(p * 2.0 + 0.5) <= 25
    ensures 5 <= ToFixedTenths(p * 1.0 + 0.5) <= 15
  {
  }

  function Max(a: int, b: int): int {
    if a >= b then a else b
  }

  /** The hourly entry of one hour of one date: `Math.max(1, p*5+2)`,
      `Math.max(0.5, p*3+1)`, `Math.max(0.2, p*2+0.5)` and `p+0.5`, each rounded
      to one decimal, with p drawn from date ++ hour ++ category. The lower
      clamps never take effect, and every value lies in its band. */
  function HourlyEntry(env: Env, date: string, hour: string): (t: Tenths)
    requires FractionInRange(env)
    ensures InHourlyBands(t)
    ensures t.ac == ToFixedTenths(PseudoRandom(env, date + hour + "AC") * 5.0 + 2.0)
    ensures t.kitchen == ToFixedTenths(PseudoRandom(env, date + hour + "Kitchen") * 3.0 + 1.0)
    ensures t.laundry == ToFixedTenths(PseudoRandom(env, date + hour + "Laundry") * 2.0 + 0.5)
  {
    var seed := date + hour;
    var pAc, pKitchen := PseudoRandom(env, seed + "AC"), PseudoRandom(env, seed + "Kitchen");
    var pLaundry, pOther := PseudoRandom(env, seed + "Laundry"), PseudoRandom(env, seed + "Other");
    RoundedDrawBands(pAc);
    RoundedDrawBands(pKitchen);
    RoundedDrawBands(pLaundry);
    RoundedDrawBands(pOther);
    Tenths(
      Max(10, ToFixedTenths(pAc * 5.0 + 2.0)),
      Max(5, ToFixedTenths(pKitchen * 3.0 + 1.0)),
      Max(2, ToFixedTenths(pLaundry * 2.0 + 0.5)),
      ToFixedTenths(pOther * 1.0 + 0.5))
  }

  /** `generateHourlyData(date)`: the 24 hourly entries of a date, in hour order. */
  function HourlyData(env: Env, date: string): (data: seq<Tenths>)
    requires FractionInRange(env)
    ensures |data| == 24
    ensures forall h :: 0 <= h < 24 ==> InHourlyBands(data[h])
  {
    seq(24, h requires 0 <= h < 24 => HourlyEntry(env, date, HourLabel(h)))
  }

  /** Category-wise sum, accumulated in list order as the page's forEach does. */
  function SumTenths(hours: seq<Tenths>): Tenths {
    if |hours| == 0 then Tenths(0, 0, 0, 0)
    else SumTenths(hours[..|hours| - 1]).Plus(hours[|hours| - 1])
  }

  /** A sum of n in-band hours lies between n times the lower and n times the
      upper band edges. */
  lemma {:induction false} SumTenthsBounds(hours: seq<Tenths>)
    requires forall k :: 0 <= k < |hours| ==> InHourlyBands(hours[k])
    ensures 20 * |hours| <= SumTenths(hours).ac <= 70 * |hours|
    ensures 10 * |hours| <= SumTenths(hours).kitchen <= 40 * |hours|
    ensures 5 * |hours| <= SumTenths(hours).laundry <= 25 * |hours|
    ensures 5 * |hours| <= SumTenths(hours).other <= 15 * |hours|
  {
    if |hours| > 0 {
      SumTenthsBounds(hours[..|hours| - 1]);
    }
  }

  /** The day total installed when an hour is deselected: every category summed
      over the 24 hours of the date. AC lies in 48-168 kWh, Kitchen in 24-96,
      Laundry in 12-60 and Other in 12-36. */
  function DailyTotal(env: Env, date: string): (b: Breakdown)
    requires FractionInRange(env)
    ensures 48.0 <= b.ac <= 168.0 && 24.0 <= b.kitchen <= 96.0
    ensures 12.0 <= b.laundry <= 60.0 && 12.0 <= b.other <= 36.0
    ensures b.Positive()
  {
    var data := HourlyData(env, date);
    SumTenthsBounds(data);
    SumTenths(data).ToKwh()
  }
}

=== FILE: usage_selection.dfy ===
/** The drill-down state of the usage-breakdown view and its four handlers
    (weekly bar click, hourly point click, date pick, week navigation), as a
    reducer from state and event to state. */
module UsageSelection {
  import opened Js
  import opened Environment
  import opened UsageData

  datatype State = State(
    /** Short label shown as the panel title when no hour is selected. */
    selectedDate: string,
    /** The weekly bar the user selected, if any. */
    selectedBarDate: Option<string>,
    /** The hourly point the user selected, as its hour label. */
    selectedHour: Option<string>,
    /** 0 = current week, 1 = previous week, ... */
    weekOffset: nat,
    /** ISO date whose hours the hourly chart shows. */
    hourlyViewDate: string,
    /** The panel's current values. */
    breakdown: Breakdown,
    /** The panel's comparison baseline, if any. */
    comparison: Option<Breakdown>)

  /** The state at mount: nothing selected, the current week, today's hours,
      the constant 45/30/15/10 breakdown and no comparison. */
  function Init(env: Env): (s: State)
    ensures s.selectedBarDate == None && s.selectedHour == None && s.comparison == None
    ensures s.weekOffset == 0 && s.hourlyViewDate == env.dayIso(env.today)
    ensures s.selectedDate == env.dayLabel(env.today)
    ensures s.breakdown == InitialBreakdown && s.breakdown.Total() == 100.0
  {
    State(env.dayLabel(env.today), None, None, 0, env.dayIso(env.today), InitialBreakdown, None)
  }

  /** A click reports the indices of the chart elements under the pointer;
      only the first one is used. */
  datatype Event =
    | WeeklyClick(elements: seq<nat>)
    | HourlyClick(elements: seq<nat>)
    | PickDate(value: string)
    | PreviousWeek
    | NextWeek

  /** The chart only reports elements it drew: 7 bars, 24 points. */
  predicate WellFormed(e: Event) {
    match e
    case WeeklyClick(els) => |els| > 0 ==> els[0] < 7
    case HourlyClick(els) => |els| > 0 ==> els[0] < 24
    case _ => true
  }

  // ---------------------------------------------------------------------
  // Handlers
  // ---------------------------------------------------------------------

  /** `handleWeeklyChartClick`. Clicking a bar that is not the selected one
      selects it: the panel shows that day's weekly entry against last month's
      daily average, the hourly chart moves to that day and the hour selection
      is cleared. Clicking the selected bar again deselects it: the comparison
      is dropped and the hourly chart returns to today, while the breakdown and
      the hour selection are left as they were. No element: no change. */
  function WeeklyChartClick(env: Env, s: State, elements: seq<nat>): (r: State)
    requires FractionInRange(env)
    requires |elements| > 0 ==> elements[0] < 7
    ensures |elements| == 0 ==> r == s
    ensures r.weekOffset == s.weekOffset
    ensures |elements| > 0 ==>
      var clicked := WeekLabels(env, s.weekOffset)[elements[0]];
      && (r.selectedBarDate.Some? <==> s.selectedBarDate != Some(clicked))
      && (r.selectedBarDate.Some? ==>
            && r.selectedBarDate == Some(clicked) && r.selectedDate == clicked
            && r.selectedHour == None
            && r.breakdown == WeeklyEntry(env, clicked, s.weekOffset)
            && r.comparison == Some(LastMonthAverage.split)
            && r.hourlyViewDate == env.labelToIso(clicked))
      && (r.selectedBarDate.None? ==>
            && r.selectedDate == env.dayLabel(env.today)
            && r.hourlyViewDate == env.dayIso(env.today)
            && r.comparison == None
            && r.breakdown == s.breakdown && r.selectedHour == s.selectedHour)
  {
    if |elements| == 0 then s
    else
      var clicked := WeekLabels(env, s.weekOffset)[elements[0]];
      if s.selectedBarDate == Some(clicked) then
        s.(selectedBarDate := None,
           selectedDate := env.dayLabel(env.today),
           hourlyViewDate := env.dayIso(env.today),
           comparison := None)
      else
        // The week's data map holds an entry for every label it was built
        // from, so the page's presence check always succeeds.
        s.(selectedBarDate := Some(clicked),
           selectedDate := clicked,
           breakdown := WeeklyEntry(env, clicked, s.weekOffset),
           comparison := Some(LastMonthAverage.split),
           hourlyViewDate := env.labelToIso(clicked),
           selectedHour := None)
  }

  /** `handleHourlyChartClick`, evaluated against the current hourly view date.
      Clicking an hour that is not the selected one selects it: the panel shows
      that hour's entry against last month's average over 24. Clicking the
      selected hour again deselects it: the panel shows the day's 24-hour sum
      against the daily average, whether or not a bar is selected. The bar
      selection, title date, view date and week are never touched. */
  function HourlyChartClick(env: Env, s: State, elements: seq<nat>): (r: State)
    requires FractionInRange(env)
    requires |elements| > 0 ==> elements[0] < 24
    ensures |elements| == 0 ==> r == s
    ensures r.selectedBarDate == s.selectedBarDate && r.selectedDate == s.selectedDate
    ensures r.hourlyViewDate == s.hourlyViewDate && r.weekOffset == s.weekOffset
    ensures |elements| > 0 ==>
      var clicked := HourLabel(elements[0]);
      && (r.selectedHour.Some? <==> s.selectedHour != Some(clicked))
      && (r.selectedHour.Some? ==>
            && r.selectedHour == Some(clicked)
            && r.breakdown == HourlyEntry(env, s.hourlyViewDate, clicked).ToKwh()
            && r.comparison == Some(HourlyAverage()))
      && (r.selectedHour.None? ==>
            && r.breakdown == DailyTotal(env, s.hourlyViewDate)
            && r.comparison == Some(LastMonthAverage.split))
  {
    if |elements| == 0 then s
    else
      var index := elements[0];
      var clicked := HourLabel(index);
      var data := HourlyData(env, s.hourlyViewDate);
      if s.selectedHour == Some(clicked) then
        s.(selectedHour := None,
           breakdown := DailyTotal(env, s.hourlyViewDate),
           comparison := Some(LastMonthAverage.split))
      else
        // `hourlyDataMap[clickedHour]` is entry `index`: the hour labels are
        // distinct and the map is built from them in order.
        s.(selectedHour := Some(clicked),
           breakdown := data[index].ToKwh(),
           comparison := Some(HourlyAverage()))
  }

  /** The date picker's change handler: show the picked date's hours, clear both
      selections and the comparison; the breakdown is left as it was. */
  function PickHourlyDate(env: Env, s: State, value: string): (r: State)
    ensures r.hourlyViewDate == value && r.selectedDate == env.isoToLabel(value)
    ensures r.selectedBarDate == None && r.selectedHour == None && r.comparison == None
    ensures r.breakdown == s.breakdown && r.weekOffset == s.weekOffset
  {
    s.(hourlyViewDate := value,
       selectedDate := env.isoToLabel(value),
       selectedHour := None,
       selectedBarDate := None,
       comparison := None)
  }

  /** The "previous week" button: one week further back; nothing else changes. */
  function PreviousWeekClick(s: State): (r: State)
    ensures r.weekOffset == s.weekOffset + 1
    ensures r.(weekOffset := s.weekOffset) == s
  {
    s.(weekOffset := s.weekOffset + 1)
  }

  /** The "next week" button: one week forward, never past the current week;
      nothing else changes. */
  function NextWeekClick(s: State): (r: State)
    ensures r.weekOffset == if s.weekOffset == 0 then 0 else s.weekOffset - 1
    ensures r.(weekOffset := s.weekOffset) == s
  {
    s.(weekOffset := if s.weekOffset - 1 > 0 then s.weekOffset - 1 else 0)
  }

  /** The reducer. */
  /** Only the week buttons move the window, and they change nothing else. */
  function Step(env: Env, s: State, e: Event): (t: State)
    requires FractionInRange(env)
    requires WellFormed(e)
    ensures !(e.PreviousWeek? || e.NextWeek?) ==> t.weekOffset == s.weekOffset
    ensures e.PreviousWeek? || e.NextWeek? ==> t.(weekOffset := s.weekOffset) == s
    ensures t.weekOffset <= s.weekOffset + 1
  {
    match e
    case WeeklyClick(els) => WeeklyChartClick(env, s, els)
    case HourlyClick(els) => HourlyChartClick(env, s, els)
    case PickDate(value) => PickHourlyDate(env, s, value)
    case PreviousWeek => PreviousWeekClick(s)
    case NextWeek => NextWeekClick(s)
  }

  /** The state after a sequence of events, applied in order. */
  function Run(env: Env, s: State, events: seq<Event>): (t: State)
    requires FractionInRange(env)
    requires forall k :: 0 <= k < |events| ==> WellFormed(events[k])
    ensures t.weekOffset <= s.weekOffset + |events|
    ensures (forall k :: 0 <= k < |events| ==> !(events[k].PreviousWeek? || events[k].NextWeek?))
      ==> t.weekOffset == s.weekOffset
    decreases |events|
  {
    if |events| == 0 then s else Run(env, Step(env, s, events[0]), events[1..])
  }

  // ---------------------------------------------------------------------
  // Invariant
  // ---------------------------------------------------------------------

  /** What holds of every state the view can reach. */
  predicate Consistent(s: State) {
    // the panel's values are positive, so the shares are well defined
    && s.breakdown.Positive()
    // the comparison is absent, the daily average or the hourly average
    && (|| s.comparison == None
        || s.comparison == Some(LastMonthAverage.split)
        || s.comparison == Some(HourlyAverage()))
    // a selected hour is one of the 24 hour labels
    && (s.selectedHour.Some? ==> s.selectedHour.value in HourLabels())
    // a selected bar is the panel's title date and has a comparison
    && (s.selectedBarDate.Some? ==> s.selectedDate == s.selectedBarDate.value && s.comparison.Some?)
    // the hourly comparison is only shown for a selected hour
    && (s.comparison == Some(HourlyAverage()) ==> s.selectedHour.Some?)
  }

  /** Every category of a comparison a consistent state shows is positive, so
      the panel's percentage differences never divide by zero. */
  lemma ConsistentComparisonPositive(s: State)
    requires Consistent(s)
    ensures s.comparison.Some? ==> s.comparison.value.Positive()
  {
    LastMonthAverageConsistent();
  }

  lemma InitConsistent(env: Env)
    ensures Consistent(Init(env))
  {
  }

  /** Every event keeps the state consistent. */
  lemma StepConsistent(env: Env, s: State, e: Event)
    requires FractionInRange(env)
    requires WellFormed(e)
    requires Consistent(s)
    ensures Consistent(Step(env, s, e))
  {
    match e
    case HourlyClick(els) =>
      if |els| > 0 {
        assert HourLabels()[els[0]] == HourLabel(els[0]);
      }
    case _ =>
  }

  /** Every state reachable from mount is consistent. */
  lemma {:induction false} RunConsistent(env: Env, s: State, events: seq<Event>)
    requires FractionInRange(env)
    requires forall k :: 0 <= k < |events| ==> WellFormed(events[k])
    requires Consistent(s)
    ensures Consistent(Run(env, s, events))
    decreases |events|
  {
    if |events| > 0 {
      StepConsistent(env, s, events[0]);
      RunConsistent(env, Step(env, s, events[0]), events[1..]);
    }
  }

  // ---------------------------------------------------------------------
  // Toggle round trips
  // ---------------------------------------------------------------------

  /** Clicking an unselected bar twice clears the bar selection, the hour
      selection and the comparison and returns the hourly chart to today, but
      the breakdown keeps the clicked day's entry. Starting from an unselected
      state showing today, the only lasting change is that breakdown. */
  lemma WeeklyClickTwice(env: Env, s: State, index: nat)
    requires FractionInRange(env)
    requires index < 7
    requires s.selectedBarDate != Some(WeekLabels(env, s.weekOffset)[index])
    ensures
      var clicked := WeekLabels(env, s.weekOffset)[index];
      var twice := Step(env, Step(env, s, WeeklyClick([index])), WeeklyClick([index]));
      && twice == s.(selectedBarDate := None, selectedHour := None, comparison := None,
                     selectedDate := env.dayLabel(env.today),
                     hourlyViewDate := env.dayIso(env.today),
                     breakdown := WeeklyEntry(env, clicked, s.weekOffset))
      && (s.selectedBarDate == None && s.selectedHour == None && s.comparison == None
          && s.selectedDate == env.dayLabel(env.today) && s.hourlyViewDate == env.dayIso(env.today)
          ==> twice == s.(breakdown := WeeklyEntry(env, clicked, s.weekOffset)))
  {
  }

  /** Clicking an unselected hour twice leaves no hour selected and the panel
      on the day's 24-hour sum against the daily average; the bar selection,
      dates and week are as before. */
  lemma HourlyClickTwice(env: Env, s: State, index: nat)
    requires FractionInRange(env)
    requires index < 24
    requires s.selectedHour != Some(HourLabel(index))
    ensures Step(env, Step(env, s, HourlyClick([index])), HourlyClick([index]))
      == s.(selectedHour := None,
            breakdown := DailyTotal(env, s.hourlyViewDate),
            comparison := Some(LastMonthAverage.split))
  {
    var once := HourlyChartClick(env, s, [index]);
    assert Step(env, s, HourlyClick([index])) == once;
    assert once.selectedHour == Some(HourLabel(index));
    assert once.hourlyViewDate == s.hourlyViewDate;
    var twice := HourlyChartClick(env, once, [index]);
    assert Step(env, once, HourlyClick([index])) == twice;
    assert twice.selectedHour == None;
    assert twice.breakdown == DailyTotal(env, s.hourlyViewDate);
    assert twice.comparison == Some(LastMonthAverage.split);

  }

  /** "Next week" undoes "previous week"; "previous week" undoes "next week"
      except at the current week, where "next week" does nothing. */
  lemma WeekNavigationInverse(s: State)
    ensures NextWeekClick(PreviousWeekClick(s)) == s
    ensures s.weekOffset > 0 ==> PreviousWeekClick(NextWeekClick(s)) == s
    ensures s.weekOffset == 0 ==> NextWeekClick(s) == s
  {
  }

  /** Drill-down scenario: select a bar, select an hour of that day, then click
      the hour again. The bar stays selected, the hour selection is gone, and
      the panel shows the clicked day's 24-hour sum against the daily average. */
  lemma DrillDownAndBack(env: Env, s: State, bar: nat, hour: nat)
    requires FractionInRange(env)
    requires bar < 7 && hour < 24
    requires s.selectedBarDate != Some(WeekLabels(env, s.weekOffset)[bar])
    ensures
      var clicked := WeekLabels(env, s.weekOffset)[bar];
      var day := env.labelToIso(clicked);
      var r := Run(env, s, [WeeklyClick([bar]), HourlyClick([hour]), HourlyClick([hour])]);
      && r.selectedBarDate == Some(clicked) && r.selectedHour == None
      && r.hourlyViewDate == day
      && r.breakdown == DailyTotal(env, day)
      && r.comparison == Some(LastMonthAverage.split)
  {
    var events := [WeeklyClick([bar]), HourlyClick([hour]), HourlyClick([hour])];
    var s1 := Step(env, s, events[0]);
    var s2 := Step(env, s1, events[1]);
    var s3 := Step(env, s2, events[2]);
    assert events[1..][1..] == [events[2]];
    assert Run(env, s, events) == Run(env, s1, events[1..]);
    assert Run(env, s1, events[1..]) == Run(env, s2, events[1..][1..]);
    assert Run(env, s2, [events[2]]) == s3;
  }
}

=== FILE: usage_view.dfy ===
/** What the usage-breakdown view derives from its state on every render: the
    highlight hints of both charts, the hourly line's totals, and the
    breakdown panel's shares and comparison deltas. */
module UsageView {
  import opened Js
  import opened Environment
  import opened UsageData
  import opened UsageSelection

  // ---------------------------------------------------------------------
  // Weekly chart
  // ---------------------------------------------------------------------

  /** The sum of two whole numbers is whole. */
  lemma WholeSum(a: real, b: real)
    requires IsWhole(a) && IsWhole(b)
    ensures IsWhole(a + b)
  {
    assert a + b == (a.Floor + b.Floor) as real;
  }

  /** The stacked bars of the week window, one breakdown per day label: every
      segment and every stack is a whole number of kWh, and every stack lies
      between 50 and 72. */
  function WeeklySeries(env: Env, offset: nat): (bars: seq<Breakdown>)
    requires FractionInRange(env)
    ensures |bars| == 7
    ensures forall k :: 0 <= k < 7 ==> 50.0 <= bars[k].Total() <= 72.0
    ensures forall k :: 0 <= k < 7 ==>
      IsWhole(bars[k].ac) && IsWhole(bars[k].kitchen) && IsWhole(bars[k].laundry) && IsWhole(bars[k].other)
    ensures forall k :: 0 <= k < 7 ==> IsWhole(bars[k].Total())
  {
    var labels := WeekLabels(env, offset);
    var bars := seq(7, k requires 0 <= k < 7 => WeeklyEntry(env, labels[k], offset));
    forall k | 0 <= k < 7
      ensures IsWhole(bars[k].Total())
    {
      var b := bars[k];
      WholeSum(b.ac, b.kitchen);
      WholeSum(b.ac + b.kitchen, b.laundry);
      WholeSum(b.ac + b.kitchen + b.laundry, b.other);
    }
    bars
  }

  /** Clicking a bar that is not selected puts exactly the stack drawn at that
      position into the panel, and from then on only that bar is in full
      colour. */
  lemma {:induction false} ClickedBarIsShown(env: Env, s: State, i: nat)
    requires FractionInRange(env) && LabelsDistinctWithinWeek(env)
    requires i < 7
    requires s.selectedBarDate != Some(WeekLabels(env, s.weekOffset)[i])
    ensures var r := WeeklyChartClick(env, s, [i]);
      && r.breakdown == WeeklySeries(env, s.weekOffset)[i]
      && forall k :: 0 <= k < 7 ==> (BarFullColour(r, WeekLabels(env, r.weekOffset)[k]) <==> k == i)
  {
    var labels := WeekLabels(env, s.weekOffset);
    forall k | 0 <= k < 7 && k != i
      ensures labels[k] != labels[i]
    {
      if k < i {
        WeekLabelsDistinct(env, s.weekOffset, k, i);
      } else {
        WeekLabelsDistinct(env, s.weekOffset, i, k);
      }
    }
  }

  /** A bar (in every category's dataset) is drawn in full colour when no bar
      is selected or it is the selected one, and at 0.3 opacity otherwise. */
  predicate BarFullColour(s: State, dateLabel: string) {
    s.selectedBarDate == None || s.selectedBarDate == Some(dateLabel)
  }

  /** With nothing selected every bar is full colour; with a selection, two
      different bars of the window are never both full colour, and if the
      selected label is not in the window (after week navigation) none is. */
  lemma BarHighlight(env: Env, s: State)
    requires LabelsDistinctWithinWeek(env)
    ensures var labels := WeekLabels(env, s.weekOffset);
      && (s.selectedBarDate == None ==> forall k :: 0 <= k < 7 ==> BarFullColour(s, labels[k]))
      && (forall i, j :: 0 <= i < j < 7 && BarFullColour(s, labels[i]) && BarFullColour(s, labels[j])
            ==> s.selectedBarDate == None)
      && ((s.selectedBarDate.Some? && s.selectedBarDate.value !in labels)
            ==> forall k :: 0 <= k < 7 ==> !BarFullColour(s, labels[k]))
  {
    var labels := WeekLabels(env, s.weekOffset);
    forall i, j | 0 <= i < j < 7 && BarFullColour(s, labels[i]) && BarFullColour(s, labels[j])
      ensures s.selectedBarDate == None
    {
      WeekLabelsDistinct(env, s.weekOffset, i, j);
    }
  }

  // ---------------------------------------------------------------------
  // Hourly chart
  // ---------------------------------------------------------------------

  /** A point is drawn in full colour when no hour is selected or it is the
      selected hour. */
  predicate PointFullColour(s: State, hour: string) {
    s.selectedHour == None || s.selectedHour == Some(hour)
  }

  /** The selected hour's point is drawn with radius 6, every other with 3. */
  function PointRadius(s: State, hour: string): (r: int)
    ensures r == 6 <==> s.selectedHour == Some(hour)
    ensures r == 6 || r == 3
  {
    if s.selectedHour == Some(hour) then 6 else 3
  }

  /** The line itself is full colour only when no hour is selected. */
  predicate LineFullColour(s: State) {
    s.selectedHour == None
  }

  /** Among the 24 points at most one has radius 6, and two different points
      are both full colour only when no hour is selected. */
  lemma PointHighlight(s: State)
    ensures forall i, j :: 0 <= i < j < 24 && PointRadius(s, HourLabel(i)) == 6 ==> PointRadius(s, HourLabel(j)) == 3
    ensures forall i, j ::
      (0 <= i < j < 24 && PointFullColour(s, HourLabel(i)) && PointFullColour(s, HourLabel(j))) ==> LineFullColour(s)
  {
    forall i, j | 0 <= i < j < 24 && s.selectedHour == Some(HourLabel(i)) && s.selectedHour == Some(HourLabel(j))
      ensures false
    {
      HourLabelInjective(i, j);
    }
  }

  /** The line's value at every hour, in tenths of a kWh: the sum of the hour's
      four categories, between 4.0 and 15.0 kWh. */
  function HourlyTotals(env: Env, date: string): (totals: seq<int>)
    requires FractionInRange(env)
    ensures |totals| == 24
    ensures forall h :: 0 <= h < 24 ==> 40 <= totals[h] <= 150
  {
    var data := HourlyData(env, date);
    seq(24, h requires 0 <= h < 24 => data[h].Total())
  }

  /** Clicking a point that is not selected puts into the panel exactly the hour
      drawn at that position on the line, and from then on only that point is
      enlarged. */
  lemma ClickedPointIsShown(env: Env, s: State, h: nat)
    requires FractionInRange(env) && h < 24
    requires s.selectedHour != Some(HourLabel(h))
    ensures var r := HourlyChartClick(env, s, [h]);
      && r.breakdown.Total() * 10.0 == HourlyTotals(env, s.hourlyViewDate)[h] as real
      && forall k :: 0 <= k < 24 ==> (PointRadius(r, HourLabel(k)) == 6 <==> k == h)
  {
    forall k | 0 <= k < 24 && HourLabel(k) == HourLabel(h)
      ensures k == h
    {
      HourLabelInjective(k, h);
    }
  }

  function SumInts(xs: seq<int>): int {
    if |xs| == 0 then 0 else SumInts(xs[..|xs| - 1]) + xs[|xs| - 1]
  }

  /** Summing the per-hour totals gives the total of the category-wise sums. */
  lemma {:induction false} SumOfTotals(hours: seq<Tenths>, totals: seq<int>)
    requires |totals| == |hours|
    requires forall h :: 0 <= h < |hours| ==> totals[h] == hours[h].Total()
    ensures SumInts(totals) == SumTenths(hours).Total()
  {
    if |hours| > 0 {
      SumOfTotals(hours[..|hours| - 1], totals[..|totals| - 1]);
    }
  }

  /** The area under the hourly line is the day total the panel shows when an
      hour is deselected. */
  lemma HourlyTotalsMatchDailyTotal(env: Env, date: string)
    requires FractionInRange(env)
    ensures SumInts(HourlyTotals(env, date)) as real == DailyTotal(env, date).Total() * 10.0
  {
    SumOfTotals(HourlyData(env, date), HourlyTotals(env, date));
  }

  // ---------------------------------------------------------------------
  // Breakdown panel
  // ---------------------------------------------------------------------

  /** A part of a positive whole is a fraction of it; a strict part is below 1. */
  lemma QuotientBelowOne(x: real, t: real)
    requires t > 0.0
    ensures (x / t) * t == x
    ensures 0.0 < x < t ==> 0.0 < x / t < 1.0
  {
    var q := x / t;
    assert q * t == x;
    if 0.0 < x < t && q >= 1.0 {
      assert false;
    }
  }

  /** A category's share of the panel total in percent; 0 when the total is not
      positive. */
  function Share(b: Breakdown, c: Category): (share: real)
    ensures b.Total() > 0.0 ==> share * b.Total() == b.Get(c) * 100.0
    ensures b.Positive() ==> 0.0 < share < 100.0
  {
    var t := b.Total();
    if t > 0.0 then
      assert b.Positive() ==> 0.0 < b.Get(c) < t;
      QuotientBelowOne(b.Get(c), t);
      b.Get(c) / t * 100.0
    else 0.0
  }

  /** The four shares of a positive total add up to 100. */
  lemma SharesSumTo100(b: Breakdown)
    ensures b.Total() > 0.0 ==> Share(b, AC) + Share(b, Kitchen) + Share(b, Laundry) + Share(b, Other) == 100.0
  {
    var t := b.Total();
    if t > 0.0 {
      assert b.ac / t + b.kitchen / t + b.laundry / t + b.other / t == t / t;
    }
  }

  datatype Direction = Up | Down | Flat

  /** The comparison text of a panel row: the rounded percentage difference in
      tenths, the trend arrow, the red (higher usage) colour and the '+' sign. */
  datatype Delta = Delta(percentTenths: int, direction: Direction, danger: bool, plusSign: bool)

  /** (value - comparison) / comparison * 100, before rounding. */
  function PercentDiff(value: real, comparison: real): real
    requires comparison > 0.0
  {
    (value - comparison) / comparison * 100.0
  }

  /** The row's comparison, decided on the one-decimal string the page
      compares with 0: the arrow points up exactly when the difference is at
      least +0.05 %, down exactly when it is at most -0.05 %, and is flat in
      between; red and '+' go with the up arrow. */
  function ComparisonDelta(value: real, comparison: real): (d: Delta)
    requires comparison > 0.0
    ensures d.direction == Up <==> PercentDiff(value, comparison) >= 0.05
    ensures d.direction == Down <==> PercentDiff(value, comparison) <= -0.05
    ensures d.danger <==> d.direction == Up
    ensures d.plusSign <==> d.direction == Up
  {
    var tenths := ToFixedTenths(PercentDiff(value, comparison));
    var direction := if tenths > 0 then Up else if tenths < 0 then Down else Flat;
    Delta(tenths, direction, tenths > 0, tenths > 0)
  }

  /** An up arrow means more usage than the comparison, a down arrow less; equal
      values are flat. */
  lemma DeltaFollowsSign(value: real, comparison: real)
    requires comparison > 0.0
    ensures ComparisonDelta(value, comparison).direction == Up ==> value > comparison
    ensures ComparisonDelta(value, comparison).direction == Down ==> value < comparison
    ensures value == comparison ==> ComparisonDelta(value, comparison).direction == Flat
  {
    var q := (value - comparison) / comparison;
    assert q * comparison == value - comparison;
    if q > 0.0 {
      assert value - comparison > 0.0;
    } else if q < 0.0 {
      assert value - comparison < 0.0;
    }
  }

  datatype PanelRow = PanelRow(category: Category, value: real, share: real, delta: Option<Delta>)

  /** The breakdown panel: one row per category in display order with its value
      and share, and a comparison delta exactly when the state holds a
      comparison. */
  function Panel(s: State): (rows: seq<PanelRow>)
    requires s.comparison.Some? ==> s.comparison.value.Positive()
    ensures |rows| == 4
    ensures forall k :: 0 <= k < 4 ==> rows[k].category == Categories[k]
    ensures forall k :: 0 <= k < 4 ==> rows[k].value == s.breakdown.Get(Categories[k])
    ensures forall k :: 0 <= k < 4 ==> (rows[k].delta.Some? <==> s.comparison.Some?)
    ensures forall k :: 0 <= k < 4 ==> rows[k].share == Share(s.breakdown, Categories[k])
    ensures s.comparison.Some? ==> forall k :: 0 <= k < 4 ==>
      rows[k].delta == Some(ComparisonDelta(rows[k].value, s.comparison.value.Get(Categories[k])))
    ensures s.breakdown.Total() > 0.0 ==> rows[0].share + rows[1].share + rows[2].share + rows[3].share == 100.0
  {
    SharesSumTo100(s.breakdown);
    seq(4, k requires 0 <= k < 4 =>
      var c := Categories[k];
      var value := s.breakdown.Get(c);
      PanelRow(c, value, Share(s.breakdown, c),
        match s.comparison
        case None => None
        case Some(comp) => Some(ComparisonDelta(value, comp.Get(c)))))
  }

  /** The panel is well defined in every state reachable from mount. */
  lemma PanelDefinedWhenReachable(env: Env, events: seq<Event>)
    requires FractionInRange(env)
    requires forall k :: 0 <= k < |events| ==> WellFormed(events[k])
    ensures var s := Run(env, Init(env), events);
      && (s.comparison.Some? ==> s.comparison.value.Positive())
      && s.breakdown.Total() > 0.0
  {
    InitConsistent(env);
    RunConsistent(env, Init(env), events);
    ConsistentComparisonPositive(Run(env, Init(env), events));
  }

  /** The panel heading: the view date and hour when an hour is selected,
      otherwise the title date. */
  function PanelTitle(s: State): (title: string)
    ensures s.selectedHour == None ==> title == s.selectedDate
    ensures s.selectedHour.Some? ==>
      |title| == |s.hourlyViewDate| + 3 + |s.selectedHour.value| && title[..|s.hourlyViewDate|] == s.hourlyViewDate
        && title[|s.hourlyViewDate|..|s.hourlyViewDate| + 3] == " @ "
        && title[|title| - |s.selectedHour.value|..] == s.selectedHour.value
  {
    match s.selectedHour
    case Some(hour) => s.hourlyViewDate + " @ " + hour
    case None => s.selectedDate
  }
}
